=== FILE: README.md ===
# PoE Asset Updater: the pure logic of the exporters, in Dafny

PoE Asset Updater reads the game's data container and writes JSON files for a
trade-helper overlay.  Four pieces of its export routines in
`PoEAssetUpdater/Program.cs` are plain sequential logic.  This project models
those four pieces and proves their properties.

- **The stat-description block parser** (`StatDescriptions`,
  `StatDescriptionsFormat`).  It scans the concatenated, trimmed lines of the
  stat description files for `description` lines.  After each one it reads the
  id line and then the language sections: a count line followed by that many
  template lines, the first section in English.  It then peeks at the next
  line.  A `lang "<Name>"` header switches the language; any other line ends
  the block and is scanned again.
  - The model has two readings: a recursive reading (`Scan`, `ReadBlock`,
    `ReadSections`) and the source's index loop as methods.  The methods are
    proved equal to the recursive reading.
  - A serializer of documents (blocks and lines outside blocks) closes the
    round trip: the lines of a well-formed document scan to the records it
    describes.
- **The trade-entry rules** (`TradeStats`):
  - the trade id, taken after the lower-cased result label and one separator;
  - the ordered, once-each stripping of the five trade-site suffixes;
  - the first-match owner lookup over the parsed records;
  - the warning rule for labels that are expected to have no owner;
  - the "local" flag.
- **The item-category export** (`ItemCategories`):
  - the two category tables;
  - `ParseList`;
  - the first-writer-wins merge of the item trade data;
  - how one base item type is resolved: trade data before the `InheritsFrom`
    table, the awakened-gem and cluster-jewel special cases, and null
    categories left out;
  - the layout of the "Default" object;
  - the last-`/`-segment ids of another export.
- **The mod stat selector** (`ModSelector`).  It walks the six stat keys of a
  mod, skipping the 64-bit sentinel, and looks up each set key's Stats id
  through an unchecked `(int)` cast.  It records the number of the last set
  key and joins the distinct ids with spaces.

`Wrappers` holds `Option`.  `Text` holds the .NET string operations the
exporters use, stated as functions with contracts: `StartsWith`/`EndsWith`,
`Split` with and without empty entries, `Join`, `Trim`, `int.Parse`, the
invariant-culture rendering of a number, `ToLowerInvariant` and
`Split('/').Last()`.

Wherever the C# code would throw (an `int.Parse` failure, `lines[++lineIdx]`
past the end, `Substring` out of range, `bool.Parse` failure, a Stats row
index out of range), the model returns `None`.  In the source such an
exception ends the whole export.

Some behaviours of the code that the model keeps as written:
- Each suffix is stripped at most once, in list order.  The longest match is
  not preferred, and stripping is not idempotent;
  `TradeStats.NormalizeTextNotIdempotent` exhibits `"Life (Local) (Local)"`.
- The declared id count is parsed but never compared with the number of ids.
- A malformed block is not skipped: it makes the parse throw.
- `ParseList("[]")` yields one empty key, not an empty list.

## Model

| member | source | states |
|---|---|---|
| StatDescriptions.ScanWithoutMarker | PoEAssetUpdater/Program.cs:481-528 | The outer scan over lines without a `description` line yields no records |
| StatDescriptions.ScanFailsAtMarker | PoEAssetUpdater/Program.cs:481-528 | The outer scan fails only if a `description` line is left to read a block from |
| StatDescriptions.ReadBlock | PoEAssetUpdater/Program.cs:487-524 | A block that reads has an id line whose first token parses as a count; its ids are that line's tokens after the count and its stat lines those of the sections that follow, and it resumes past the id line |
| StatDescriptions.ReadSections | PoEAssetUpdater/Program.cs:496-524 | Sections that read start at a parsable count line, and stop at the end of the lines or before a line that is not a language header |
| StatDescriptions.ParseStatDescriptions | PoEAssetUpdater/Program.cs:481-528 | The index loop over all lines yields exactly the records of the recursive block reading, or fails exactly where that reading fails |
| StatDescriptions.ReadStatDescription | PoEAssetUpdater/Program.cs:487-526 | Reading a block from its id line fails iff the block reading fails; otherwise it gives the same record, and its index is the last line consumed, one before the line the outer scan resumes at |
| StatDescriptions.ReadLanguages | PoEAssetUpdater/Program.cs:495-524 | The language loop, started in English after the id line, reads the same stat lines as the section reading and stops on the line before the first unconsumed one |
| StatDescriptions.ReadSection | PoEAssetUpdater/Program.cs:499-523 | One pass reads a count line and its template lines, then peeks. Consuming a language header means the rest is read in the new language; otherwise the block ends and the peeked line is left unconsumed |
| StatDescriptions.ReadTemplateLines | PoEAssetUpdater/Program.cs:500-504 | The template loop fails iff the announced count runs past the last line; otherwise it consumes exactly that many lines (none for a negative count) |
| StatDescriptions.NegativeCountReadsNothing | PoEAssetUpdater/Program.cs:500-501 | A negative count reads no template lines and goes straight to the peek |
| StatDescriptions.TruncatedBlockFails | PoEAssetUpdater/Program.cs:499-503 | A block whose count announces more lines than remain makes the whole parse fail |
| StatDescriptions.LangName | PoEAssetUpdater/Program.cs:509-513 | The language taken from a header has no spaces |
| StatDescriptionsFormat.LangHeaderName | PoEAssetUpdater/Program.cs:509-513 | A written `lang "<Name>"` line matches the header pattern of line 30, and reading it back gives the name with its spaces removed |
| StatDescriptionsFormat.MarkerNotHeader | PoEAssetUpdater/Program.cs:485-509 | A line that opens a block is never taken for a language header |
| StatDescriptionsFormat.ScanSerialize | PoEAssetUpdater/Program.cs:481-528 | Round trip: the lines of a well-formed document scan to one record per block, in file order. The ids are the id line's tokens after the count; English lines come first, then each later section's lines under its header's name |
| Text.TokensOfJoin | PoEAssetUpdater/Program.cs:488 | Splitting on tabs and spaces without empty entries gives back non-empty, blank-free words joined by single spaces |
| Text.Tokens | PoEAssetUpdater/Program.cs:488 | Every token of the id line is non-empty and free of tabs and spaces |
| Text.TokensOfInterleave | PoEAssetUpdater/Program.cs:488 | Words separated by non-empty runs of tabs and spaces, with any such run at either end, split back into exactly those words |
| Text.ParseInt32 | PoEAssetUpdater/Program.cs:489 | `int.Parse` succeeds only with a value in the 32-bit range, and only on a text holding at least one digit |
| Text.ParseNatToStringPadded | PoEAssetUpdater/Program.cs:500 | `int.Parse` reads a rendered number in range followed by white space and then NUL characters as that number |
| Text.ParseNatToString | PoEAssetUpdater/Program.cs:500 | `int.Parse` reads the rendering of any non-negative number in 32-bit range back as that number |
| Text.ParseNegatedNatToString | PoEAssetUpdater/Program.cs:500 | `int.Parse` reads a minus sign followed by a rendered magnitude in range as the negated number |
| Text.NatToStringInjective | PoEAssetUpdater/Program.cs:674 | Different row indices render to different keys, so the trade-data lookup by index is unambiguous |
| Text.LastSegment | PoEAssetUpdater/Program.cs:670-671 | `Split('/').Last()`, as also used at lines 294 and 711, is a suffix of the path without any `/`, and is the whole path or is preceded by a `/` |
| Text.TrimWith | PoEAssetUpdater/Program.cs:722 | The result has no leading or trailing white space, and an already trimmed text is unchanged |
| TradeStats.TradeId | PoEAssetUpdater/Program.cs:549 | The trade id exists iff the entry id is longer than the label; it then has the entry id's length minus the label's minus one and is a suffix of the entry id |
| TradeStats.TradeIdOfQualified | PoEAssetUpdater/Program.cs:549 | An entry id made of the label, any one separator and an id gives back that id |
| TradeStats.TradeIdRestores | PoEAssetUpdater/Program.cs:549 | The dropped prefix followed by the trade id is the entry id |
| TradeStats.LastIndexOfSuffix | PoEAssetUpdater/Program.cs:555-557 | For a text that ends with the suffix, `LastIndexOf` finds the occurrence at the end, so `Substring(0, LastIndexOf)` removes exactly the suffix |
| TradeStats.StripSuffix | PoEAssetUpdater/Program.cs:555-557 | A matching suffix is removed, and the rest followed by the suffix is the text; a text that does not end with it is unchanged |
| TradeStats.StripSuffixes | PoEAssetUpdater/Program.cs:553-559 | The stripping loop leaves a prefix of the text |
| TradeStats.NormalizeText | PoEAssetUpdater/Program.cs:553-559 | The text handed to the matcher is a prefix of the entry's text |
| TradeStats.StripSuffixesUnchanged | PoEAssetUpdater/Program.cs:553-559 | Ordered stripping leaves the text unchanged iff it ends with none of the suffixes; otherwise it shortens the text |
| TradeStats.NormalizeTextUnchanged | PoEAssetUpdater/Program.cs:553-559 | With the five trade-site suffixes of line 32, the text is unchanged iff it ends with none of them |
| TradeStats.StripLocal | PoEAssetUpdater/Program.cs:553-559 | A text ending in ` (Local)`, whose stem ends in none of the later suffixes, normalizes to the stem |
| TradeStats.NormalizeTextNotIdempotent | PoEAssetUpdater/Program.cs:553-559 | Each suffix is removed at most once: `"Life (Local) (Local)"` normalizes to `"Life (Local)"`, and a second normalization changes it again |
| TradeStats.NormalizeTextOrdered | PoEAssetUpdater/Program.cs:553-559 | The suffixes are tried in list order: ` (Maps)` comes off `"Life (Local) (Maps)"`, but ` (Local)`, tried earlier, stays |
| TradeStats.FindOwner | PoEAssetUpdater/Program.cs:561-563 | The owner is the first record in parse order whose stat lines match the text; there is none iff no record matches |
| TradeStats.ParseBool | PoEAssetUpdater/Program.cs:576 | `bool.Parse` gives `b` iff the text, trimmed of white space and NUL, equals the rendering of `b` ignoring ASCII case |
| TradeStats.ParseBoolPadded | PoEAssetUpdater/Program.cs:576 | A rendered flag with any white space or NUL padding parses back to itself |
| TradeStats.IsLocal | PoEAssetUpdater/Program.cs:576 | With no Stats row whose id the record has, the flag is false and nothing is parsed, so nothing can throw |
| TradeStats.IsLocalTrue | PoEAssetUpdater/Program.cs:576 | A "local" flag implies some Stats row whose id is one of the record's ids and whose `IsLocal` parses to true |
| TradeStats.IsLocalFalse | PoEAssetUpdater/Program.cs:576 | No "local" flag, without an exception, iff every row either has another id or has a parsable `IsLocal` that is false |
| TradeStats.IsLocalThrows | PoEAssetUpdater/Program.cs:576 | The check throws only because some row with a matching id has an unparsable `IsLocal` |
| TradeStats.IsLocalExists | PoEAssetUpdater/Program.cs:576 | When no matching row's `IsLocal` fails to parse, the flag is exactly whether some matching row is local |
| TradeStats.ProcessEntry | PoEAssetUpdater/Program.cs:549-580 | An entry that does not throw has an id longer than the label; a resolved entry names a record that matches the normalized text and carries the entry id after the label and its separator |
| TradeStats.ProcessEntryOutcome | PoEAssetUpdater/Program.cs:549-580 | An entry fails iff its trade id cannot be cut or its local check throws. Without an owner it is skipped, with a warning iff the label is not suppressed. Otherwise it carries the trade id, the first owner and the local flag |
| TradeStats.ProcessResult | PoEAssetUpdater/Program.cs:542-598 | One result's entries are processed in order under the lower-cased label, and the whole result fails iff one entry does |
| TradeStats.QuietLabel | PoEAssetUpdater/Program.cs:563-569 | Under a label that lower-cases (line 544) to one of the suppressed labels of line 34, no entry is skipped with a warning |
| ItemCategories.ParseList | PoEAssetUpdater/Program.cs:717-724 | Parsing succeeds iff the text has at least two characters. The text between the brackets is then the comma-joined comma-free pieces, and the result is each piece trimmed: one per comma plus one |
| ItemCategories.ParseListOfJoin | PoEAssetUpdater/Program.cs:717-724 | Trimmed, comma-free keys written in brackets and separated by commas parse back unchanged |
| ItemCategories.ParseListOfPadded | PoEAssetUpdater/Program.cs:717-724 | Comma-free pieces written in brackets and separated by commas parse to the pieces trimmed |
| ItemCategories.ParseListOfCommaSpace | PoEAssetUpdater/Program.cs:717-724 | Trimmed, comma-free keys written in brackets and separated by `", "` parse back unchanged |
| ItemCategories.ParseListOfEmptyBrackets | PoEAssetUpdater/Program.cs:717-724 | `"[]"` parses to one empty key |
| ItemCategories.Assignments | PoEAssetUpdater/Program.cs:640-648 | Every category assigned is a value of the trade-data table of line 36 |
| ItemCategories.AssignmentsFail | PoEAssetUpdater/Program.cs:640-648 | Reading the trade data throws iff some row with a mapped category id has a key list shorter than two characters |
| ItemCategories.Merge | PoEAssetUpdater/Program.cs:649-659 | The merge keeps every key already present with its category, gives every assigned key some category, and adds no other key |
| ItemCategories.FirstAssigned | PoEAssetUpdater/Program.cs:648-659 | Reference reading of first-writer-wins: no category iff no assignment names the key, else the category of its first assignment |
| ItemCategories.MergeFirstWins | PoEAssetUpdater/Program.cs:649-659 | The merge keeps every category already present, and gives each new key exactly the category of its first assignment |
| ItemCategories.TradeDataCategories | PoEAssetUpdater/Program.cs:639-660 | The trade data reads iff its assignments do, and then the keys with a category are exactly the assigned keys |
| ItemCategories.TradeDataCategoriesFirst | PoEAssetUpdater/Program.cs:639-660 | A base item type has a trade-data category iff some mapped trade-data row lists it; that category is the first one listed |
| ItemCategories.Refine | PoEAssetUpdater/Program.cs:681-691 | A support gem becomes an awakened support gem iff its id ends in `Plus`, and a jewel becomes a cluster jewel iff its id starts with `JewelPassiveTreeExpansion`; every other category is unchanged |
| ItemCategories.Resolve | PoEAssetUpdater/Program.cs:670-698 | A row gets a category to write iff the trade data files its index or its last `InheritsFrom` segment maps to a non-null category |
| ItemCategories.ResolveTradeDataFirst | PoEAssetUpdater/Program.cs:674-675 | When the trade data files the row index, the row is categorized, the same way whatever its `InheritsFrom` path |
| ItemCategories.ResolveMissing | PoEAssetUpdater/Program.cs:674-679 | A row has no category iff neither the trade data files its index nor the `InheritsFrom` table has its last segment |
| ItemCategories.ResolveIgnored | PoEAssetUpdater/Program.cs:674-698 | A row is skipped silently iff the trade data does not file it and its `InheritsFrom` entry is null |
| ItemCategories.AwakenedSupportGem | PoEAssetUpdater/Program.cs:670-685 | A row inheriting from `SupportSkillGem` whose id ends in `Plus` is filed as an awakened support gem, unless the trade data files it |
| ItemCategories.ClusterJewel | PoEAssetUpdater/Program.cs:670-691 | A row inheriting from `AbstractJewel` whose id starts with `JewelPassiveTreeExpansion` is filed as a cluster jewel, unless the trade data files it |
| ItemCategories.CategorizedRows | PoEAssetUpdater/Program.cs:667-698 | The reference order: the indices of the categorized rows, strictly ascending, each one there |
| ItemCategories.WrittenOrder | PoEAssetUpdater/Program.cs:667-698 | The written pairs follow the rows: one per categorized row, the k-th being the k-th categorized row's id and category |
| ItemCategories.WrittenMembers | PoEAssetUpdater/Program.cs:693-698 | A pair is written for every categorized row, and every written pair comes from a categorized row with that id and category |
| ItemCategories.DefaultObject | PoEAssetUpdater/Program.cs:662-713 | The "Default" object holds the base item pairs, then each prophecy id as a prophecy, then each monster variety's last id segment as a monster beast |
| ItemCategories.WriteCategories | PoEAssetUpdater/Program.cs:639-715 | The category export throws only where reading the trade data throws |
| ItemCategories.WriteCategoriesOrder | PoEAssetUpdater/Program.cs:662-698 | The export opens with the base item pairs, one per categorized row in row order, each under the row's last id segment with its category |
| ItemCategories.WriteBaseItemTypesRows | PoEAssetUpdater/Program.cs:667-698 | Each row with a category is written under its last id segment with that category, and each written pair comes from such a row |
| ItemCategories.SlashSeparatedRecord | PoEAssetUpdater/Program.cs:292-300 | Two pairs are written, the last id segment to the name and back; that segment has no `/` and ends the id path |
| ModSelector.ToInt32 | PoEAssetUpdater/Program.cs:433 | The unchecked cast gives a 32-bit value congruent to the key modulo 2^32, and keeps any key in range |
| ModSelector.UndefinedCastsNegative | PoEAssetUpdater/Program.cs:433 | The sentinel of line 25 would cast to a negative row index |
| ModSelector.LastValid | PoEAssetUpdater/Program.cs:427-436 | The last set key's number points at a set key and every key after it is the sentinel |
| ModSelector.LastValidZero | PoEAssetUpdater/Program.cs:427-436 | The number is 0 iff every key is the sentinel |
| ModSelector.StatName | PoEAssetUpdater/Program.cs:433 | The Stats lookup succeeds iff the cast key is a row index, and a key no larger than Int32Max (a non-negative 32-bit int) indexes its own row |
| ModSelector.SetPositions | PoEAssetUpdater/Program.cs:427-436 | The reference order of the names: the positions of the set keys, strictly ascending, each one there |
| ModSelector.ValidNames | PoEAssetUpdater/Program.cs:427-434 | Collecting the set keys' Stats ids fails iff some set key indexes outside the Stats table |
| ModSelector.ValidNamesOrder | PoEAssetUpdater/Program.cs:427-436 | When no lookup throws, the names are one per set key in key order, the k-th being the Stats id at the k-th set key's cast index |
| ModSelector.Distinct | PoEAssetUpdater/Program.cs:438 | `Distinct()` keeps the same elements, each once, in first-occurrence order |
| ModSelector.DistinctOfNoDuplicates | PoEAssetUpdater/Program.cs:438 | A list without repeats is its own `Distinct()` |
| ModSelector.RecordSelector | PoEAssetUpdater/Program.cs:424-439 | The selector fails iff a set key indexes outside the Stats table. Otherwise it gives the last set key's number and the distinct Stats ids of the set keys, in key order, joined by single spaces |

## Left out

- Reading the game container (`GetDatContainer`, `ReadFileContent`, `GetDataValueStringByFieldId`), the `WebClient` download and `JObject` parsing, and all `JsonTextWriter` output are I/O.  Field values are given as strings or integers, and output is a sequence of pairs.
- The Unicode decoding and line splitting of the description files are library text handling.  The parser takes the trimmed, non-empty lines, already concatenated.
- `StatDescription` itself lives in a file that is not part of this model: `ParseAndAddStatLine`, `HasMatchingStatLine`, `FullIdentifier`, `Negated` and `GetStatLines`.  A record is the ids and the (language, line) pairs it was fed, and the stat-line matcher is a function parameter.  `HasMatchingIdentifier` is taken to be membership in the record's ids.
- The string values of `ItemCategory` and `Language` are not part of this model.  Categories are a datatype taken to have distinct values, and `Language.English` is the text `"English"`.
- The mods export's `GroupBy` on the selector's key and `WriteMinMaxValues` are outside the selector.  So are the `Replace(CorrectGroup)` renaming of mod ids and the null checks on containers.
- Culture-sensitive string operations are modelled with ordinal comparison: `StartsWith`, `EndsWith` and `LastIndexOf` with a string argument.  `ToLowerInvariant` and `bool.Parse`'s case folding are modelled on ASCII letters only.
- `Text.ParseInt32`: `int.Parse(string)` reads under the current culture.  The model fixes white space, ASCII digits, the ASCII signs `-` and `+` and trailing NUL characters, and does not model cultures with other sign symbols.
- `ModSelector.RecordSelector`: the `ulong.Parse` of each key is not modelled; the keys are given as 64-bit numbers.
- `TradeStats.ProcessEntry`: the "negated" flag and the per-language text are not modelled, because they come from the `StatDescription` internals.
- The logging calls (`PrintWarning`, `PrintError`, `Logger`) appear only as the outcome's warning flag, or not at all.
- `Main`, argument handling and the other exporters are plumbing outside the modelled core.

=== FILE: item_categories.dfy ===
/** The item-category export: which category each base item type is filed
    under.

    Categories come from two places.  The item trade data lists, per trade
    category id, the base item types (by row index) it covers; the first
    category a row is given sticks.  Failing that, the last `/` segment of the
    row's `InheritsFrom` path is looked up in a fixed table, whose entries for
    untradable kinds are null.  Awakened support gems and cluster jewels are
    then told apart by their ids.  A row with no category is reported and
    skipped, and a row whose category is null is left out silently. */
module ItemCategories {
  import opened Wrappers
  import opened Text

  /** The item categories the exporter writes.  Their string values live in a
      class this model does not include; they are taken to be distinct. */
  datatype ItemCategory =
    | Currency | Card | CurrencyFossil | CurrencyResonator | CurrencyIncubator | CurrencyPiece
    | MapFragment | Map | MapScarab | Leaguestone
    | AccessoryRing | AccessoryAmulet | AccessoryBelt
    | ArmourShield | ArmourHelmet | ArmourChest | ArmourBoots | ArmourGloves | ArmourQuiver
    | Flask | GemActivegem | GemSupportGem | GemSupportGemplus
    | Jewel | JewelAbyss | JewelCluster
    | MonsterSample | Watchstone
    | WeaponTwoSword | WeaponWand | WeaponDagger | WeaponRunedagger | WeaponClaw
    | WeaponOneAxe | WeaponOneSword | WeaponOneMace | WeaponSceptre | WeaponBow
    | WeaponStaff | WeaponWarstaff | WeaponTwoAxe | WeaponTwoMace | WeaponRod
    | Prophecy | MonsterBeast

  /** Trade category id to item category. */
  const TradeDataCategoryMapping: map<string, ItemCategory> := map[
    "Currency" := Currency, "Cards" := Card, "Catalysts" := Currency,
    "DeliriumOrbs" := Currency, "DelveFossils" := CurrencyFossil,
    "DelveResonators" := CurrencyResonator, "Essences" := Currency,
    "Fragments" := MapFragment, "Incubators" := CurrencyIncubator,
    "Leaguestones" := Leaguestone, "MapsBlighted" := Map,
    "MapsTier1" := Map, "MapsTier2" := Map, "MapsTier3" := Map, "MapsTier4" := Map,
    "MapsTier5" := Map, "MapsTier6" := Map, "MapsTier7" := Map, "MapsTier8" := Map,
    "MapsTier9" := Map, "MapsTier10" := Map, "MapsTier11" := Map, "MapsTier12" := Map,
    "MapsTier13" := Map, "MapsTier14" := Map, "MapsTier15" := Map, "MapsTier16" := Map,
    "Nets" := Currency, "Oils" := Currency, "Prophecies" := Currency,
    "Scarabs" := MapScarab, "Vials" := Currency]

  /** Last `InheritsFrom` segment to item category; `None` is the table's null
      for kinds that are not exported.  `AbstractTwoHandSword` is listed twice
      with the same category, and the spelling `AbstactPantheonSoul` is the
      table's own. */
  const InheritsFromCategoryMapping: map<string, Option<ItemCategory>> := map[
    "AbstractRing" := Some(AccessoryRing), "AbstractAmulet" := Some(AccessoryAmulet),
    "AbstractBelt" := Some(AccessoryBelt),
    "AbstractShield" := Some(ArmourShield), "AbstractHelmet" := Some(ArmourHelmet),
    "AbstractBodyArmour" := Some(ArmourChest), "AbstractBoots" := Some(ArmourBoots),
    "AbstractGloves" := Some(ArmourGloves), "AbstractQuiver" := Some(ArmourQuiver),
    "AbstractCurrency" := Some(Currency), "StackableCurrency" := Some(Currency),
    "DelveSocketableCurrency" := Some(CurrencyResonator),
    "AbstractUniqueFragment" := Some(CurrencyPiece),
    "AbstractDivinationCard" := Some(Card),
    "AbstractLifeFlask" := Some(Flask), "AbstractManaFlask" := Some(Flask),
    "AbstractHybridFlask" := Some(Flask), "CriticalUtilityFlask" := Some(Flask),
    "AbstractUtilityFlask" := Some(Flask),
    "ActiveSkillGem" := Some(GemActivegem), "SupportSkillGem" := Some(GemSupportGem),
    "AbstractJewel" := Some(Jewel), "AbstractAbyssJewel" := Some(JewelAbyss),
    "AbstractMap" := Some(Map), "AbstractMapFragment" := Some(MapFragment),
    "AbstractMiscMapItem" := Some(MapFragment),
    "MetamorphosisDNA" := Some(MonsterSample),
    "AtlasRegionUpgrade" := Some(Watchstone),
    "AbstractTwoHandSword" := Some(WeaponTwoSword), "AbstractWand" := Some(WeaponWand),
    "AbstractDagger" := Some(WeaponDagger), "AbstractRuneDagger" := Some(WeaponRunedagger),
    "AbstractClaw" := Some(WeaponClaw), "AbstractOneHandAxe" := Some(WeaponOneAxe),
    "AbstractOneHandSword" := Some(WeaponOneSword),
    "AbstractOneHandSwordThrusting" := Some(WeaponOneSword),
    "AbstractOneHandMace" := Some(WeaponOneMace), "AbstractSceptre" := Some(WeaponSceptre),
    "AbstractBow" := Some(WeaponBow), "AbstractStaff" := Some(WeaponStaff),
    "AbstractWarstaff" := Some(WeaponWarstaff), "AbstractTwoHandAxe" := Some(WeaponTwoAxe),
    "AbstractTwoHandSword" := Some(WeaponTwoSword), "AbstractTwoHandMace" := Some(WeaponTwoMace),
    "AbstractFishingRod" := Some(WeaponRod),
    "AbstractMicrotransaction" := None, "AbstractQuestItem" := None,
    "AbstractLabyrinthItem" := None, "AbstractHideoutDoodad" := None,
    "LabyrinthTrinket" := None, "AbstactPantheonSoul" := None]

  // ---------------------------------------------------------------------------
  // ParseList: "[a, b, c]" to ["a", "b", "c"]
  // ---------------------------------------------------------------------------

  function TrimAll(pieces: seq<string>): (r: seq<string>)
    ensures |r| == |pieces|
    ensures forall i :: 0 <= i < |pieces| ==> r[i] == Trim(pieces[i])
  {
    seq(|pieces|, i requires 0 <= i < |pieces| => Trim(pieces[i]))
  }

  /** The first and last characters (the brackets) dropped, the rest split at
      every comma and each piece trimmed; `None` where `Substring` would throw
      on a text shorter than two characters. */
  function ParseList(text: string): (r: Option<seq<string>>)
    ensures r.Some? <==> |text| >= 2
    ensures r.Some? ==> |r.value| == CountIn(text[1..|text| - 1], {','}) + 1
    ensures r.Some? ==> forall i :: 0 <= i < |r.value| ==> IsTrimmed(r.value[i], WhiteSpace)
    ensures r.Some? ==> exists raw: seq<string> ::
              && |raw| == |r.value|
              && Join(raw, ",") == text[1..|text| - 1]
              && (forall i :: 0 <= i < |raw| ==> NoneIn(raw[i], {','}) && r.value[i] == Trim(raw[i]))
  {
    if |text| < 2 then None
    else
      var inner := text[1..|text| - 1];
      var raw := SplitAny(inner, {','});
      JoinSplit(inner, ',');
      SplitAnyPieces(inner, {','});
      assert "," == [','];
      Some(TrimAll(raw))
  }

  /** Trimming changes no piece that is already trimmed. */
  lemma TrimAllTrimmed(pieces: seq<string>)
    requires forall i :: 0 <= i < |pieces| ==> IsTrimmed(pieces[i], WhiteSpace)
    ensures TrimAll(pieces) == pieces
  {
    forall i | 0 <= i < |pieces|
      ensures TrimAll(pieces)[i] == pieces[i]
    {
      assert TrimWith(pieces[i], WhiteSpace) == pieces[i];
    }
  }

  /** What lies between the brackets of `"[" + inner + "]"`. */
  lemma Bracketed(inner: string)
    ensures var text := "[" + inner + "]";
            |text| >= 2 && text[1..|text| - 1] == inner
  {
  }

  /** Comma-free, trimmed keys written between brackets and separated by
      commas are read back unchanged. */
  lemma ParseListOfJoin(keys: seq<string>)
    requires |keys| > 0
    requires forall i :: 0 <= i < |keys| ==> NoneIn(keys[i], {','}) && IsTrimmed(keys[i], WhiteSpace)
    ensures ParseList("[" + Join(keys, ",") + "]") == Some(keys)
  {
    Bracketed(Join(keys, ","));
    SplitJoin(keys, ',', {','});
    TrimAllTrimmed(keys);
  }

  /** Comma-free keys written between brackets and separated by commas read
      back as the keys trimmed, whatever white space surrounds them. */
  lemma ParseListOfPadded(raw: seq<string>)
    requires |raw| > 0
    requires forall i :: 0 <= i < |raw| ==> NoneIn(raw[i], {','})
    ensures ParseList("[" + Join(raw, ",") + "]") == Some(TrimAll(raw))
  {
    Bracketed(Join(raw, ","));
    SplitJoin(raw, ',', {','});
  }

  /** Each key with a space in front. */
  function Spaced(keys: seq<string>): (r: seq<string>)
    ensures |r| == |keys|
    ensures forall i :: 0 <= i < |keys| ==> r[i] == " " + keys[i]
  {
    seq(|keys|, i requires 0 <= i < |keys| => " " + keys[i])
  }

  lemma {:induction false} JoinSpaced(keys: seq<string>)
    requires |keys| > 0
    ensures Join(Spaced(keys), ",") == " " + Join(keys, ", ")
    decreases |keys|
  {
    if |keys| > 1 {
      JoinSpaced(keys[1..]);
      assert Spaced(keys)[1..] == Spaced(keys[1..]);
      assert Join(Spaced(keys), ",") == (" " + keys[0]) + "," + (" " + Join(keys[1..], ", "));
    }
  }

  /** The pieces between the commas of `Join(keys, ", ")`. */
  function CommaSpacePieces(keys: seq<string>): (raw: seq<string>)
    requires |keys| > 0
    ensures |raw| == |keys| && raw[0] == keys[0]
    ensures forall i :: 0 < i < |keys| ==> raw[i] == " " + keys[i]
  {
    [keys[0]] + Spaced(keys[1..])
  }

  lemma JoinCommaSpacePieces(keys: seq<string>)
    requires |keys| > 0
    ensures Join(CommaSpacePieces(keys), ",") == Join(keys, ", ")
  {
    var raw := CommaSpacePieces(keys);
    if |keys| > 1 {
      var j := Join(keys[1..], ", ");
      JoinSpaced(keys[1..]);
      assert raw == [keys[0]] + Spaced(keys[1..]);
      JoinCons(keys[0], Spaced(keys[1..]), ",");
      assert keys == [keys[0]] + keys[1..];
      JoinCons(keys[0], keys[1..], ", ");
      CommaThenSpace(keys[0], j);
    }
  }

  lemma CommaThenSpace(a: string, j: string)
    ensures a + "," + (" " + j) == a + ", " + j
  {
    assert ", " == "," + " ";
  }

  lemma CommaSpacePiecesCommaFree(keys: seq<string>)
    requires |keys| > 0
    requires forall i :: 0 <= i < |keys| ==> NoneIn(keys[i], {','})
    ensures forall i :: 0 <= i < |keys| ==> NoneIn(CommaSpacePieces(keys)[i], {','})
  {
    var raw := CommaSpacePieces(keys);
    forall i | 0 < i < |keys|
      ensures NoneIn(raw[i], {','})
    {
      assert raw[i] == [' '] + keys[i];
    }
  }

  lemma TrimCommaSpacePieces(keys: seq<string>)
    requires |keys| > 0
    requires forall i :: 0 <= i < |keys| ==> IsTrimmed(keys[i], WhiteSpace)
    ensures TrimAll(CommaSpacePieces(keys)) == keys
  {
    var raw := CommaSpacePieces(keys);
    forall i | 0 <= i < |keys|
      ensures TrimAll(raw)[i] == keys[i]
    {
      if i > 0 {
        TrimLeadingSpace(keys[i], WhiteSpace);
      }
    }
  }

  /** The form `"[a, b, c]"`: trimmed, comma-free keys separated by a comma
      and a space read back unchanged. */
  lemma ParseListOfCommaSpace(keys: seq<string>)
    requires |keys| > 0
    requires forall i :: 0 <= i < |keys| ==> NoneIn(keys[i], {','}) && IsTrimmed(keys[i], WhiteSpace)
    ensures ParseList("[" + Join(keys, ", ") + "]") == Some(keys)
  {
    var raw := CommaSpacePieces(keys);
    JoinCommaSpacePieces(keys);
    CommaSpacePiecesCommaFree(keys);
    TrimCommaSpacePieces(keys);
    ParseListOfPadded(raw);
  }

  /** An empty list reads as one empty key. */
  lemma ParseListOfEmptyBrackets()
    ensures ParseList("[]") == Some([""])
  {
    Bracketed("");
    assert SplitAny("", {','}) == [""];
    TrimAllTrimmed([""]);
  }

  // ---------------------------------------------------------------------------
  // The item trade data: first writer wins
  // ---------------------------------------------------------------------------

  /** A row of the item trade data: its category id and its stringified list
      of base item type row indices. */
  datatype TradeDataRow = TradeDataRow(categoryId: string, keys: string)

  /** The (key, category) assignments the trade data makes, in order.  A row
      whose category id is unmapped is reported and contributes nothing; a
      mapped row whose key list does not parse throws. */
  function Assignments(rows: seq<TradeDataRow>): (r: Option<seq<(string, ItemCategory)>>)
    ensures r.Some? ==> forall i :: 0 <= i < |r.value| ==> r.value[i].1 in TradeDataCategoryMapping.Values
    decreases |rows|
  {
    if |rows| == 0 then Some([])
    else
      var rest := Assignments(rows[1..]);
      if rows[0].categoryId !in TradeDataCategoryMapping then rest
      else
        var category := TradeDataCategoryMapping[rows[0].categoryId];
        assert category in TradeDataCategoryMapping.Values;
        match ParseList(rows[0].keys)
        case None => None
        case Some(keys) =>
          match rest
          case None => None
          case Some(more) => Some(Assign(keys, category) + more)
  }

  /** Every key of one trade-data row paired with the row's category. */
  function Assign(keys: seq<string>, category: ItemCategory): (r: seq<(string, ItemCategory)>)
    ensures |r| == |keys| && forall i :: 0 <= i < |r| ==> r[i] == (keys[i], category)
  {
    seq(|keys|, i requires 0 <= i < |keys| => (keys[i], category))
  }

  /** A mapped row whose key list is too short to have brackets, and only
      such a row, makes reading the trade data throw. */
  lemma {:induction false} AssignmentsFail(rows: seq<TradeDataRow>)
    ensures Assignments(rows).None? <==>
              exists i :: 0 <= i < |rows| && rows[i].categoryId in TradeDataCategoryMapping && |rows[i].keys| < 2
    decreases |rows|
  {
    if |rows| > 0 {
      AssignmentsFail(rows[1..]);
      if Assignments(rows[1..]).None? {
        var i :| 0 <= i < |rows[1..]| && rows[1..][i].categoryId in TradeDataCategoryMapping && |rows[1..][i].keys| < 2;
        assert rows[i + 1] == rows[1..][i];
      } else {
        forall i | 1 <= i < |rows|
          ensures !(rows[i].categoryId in TradeDataCategoryMapping && |rows[i].keys| < 2)
        {
          assert rows[i] == rows[1..][i - 1];
        }
      }
    }
  }

  /** The merge loop: a key is (re)assigned only when it is absent or already
      has the same category; on a conflict the earlier category is kept and
      the conflict reported. */
  function Merge(m: map<string, ItemCategory>, assignments: seq<(string, ItemCategory)>): (r: map<string, ItemCategory>)
    ensures forall key :: key in m ==> key in r && r[key] == m[key]
    ensures forall i :: 0 <= i < |assignments| ==> assignments[i].0 in r
    ensures forall key :: key in r ==> key in m || exists i :: 0 <= i < |assignments| && assignments[i].0 == key
    decreases |assignments|
  {
    if |assignments| == 0 then m
    else
      var (key, category) := assignments[0];
      var next := if key !in m || m[key] == category then m[key := category] else m;
      var r := Merge(next, assignments[1..]);
      assert forall i :: 1 <= i < |assignments| ==> assignments[i] == assignments[1..][i - 1];
      r
  }

  /** The reference reading of first-writer-wins: the category of the first
      assignment to `key`, if any. */
  function FirstAssigned(assignments: seq<(string, ItemCategory)>, key: string): (r: Option<ItemCategory>)
    ensures r.None? <==> forall i :: 0 <= i < |assignments| ==> assignments[i].0 != key
    ensures r.Some? ==> exists i :: 0 <= i < |assignments| && assignments[i] == (key, r.value)
                                    && forall j :: 0 <= j < i ==> assignments[j].0 != key
    decreases |assignments|
  {
    if |assignments| == 0 then None
    else if assignments[0].0 == key then Some(assignments[0].1)
    else
      var r := FirstAssigned(assignments[1..], key);
      if r.Some? then
        var i :| 0 <= i < |assignments[1..]| && assignments[1..][i] == (key, r.value)
                 && forall j :: 0 <= j < i ==> assignments[1..][j].0 != key;
        assert assignments[i + 1] == (key, r.value);
        assert forall j :: 0 < j < i + 1 ==> assignments[j] == assignments[1..][j - 1];
        r
      else r
  }

  /** The merge keeps every category already present and gives every new key
      the category of its first assignment. */
  lemma {:induction false} MergeFirstWins(m: map<string, ItemCategory>, assignments: seq<(string, ItemCategory)>, key: string)
    ensures key in Merge(m, assignments) <==> key in m || FirstAssigned(assignments, key).Some?
    ensures key in m ==> Merge(m, assignments)[key] == m[key]
    ensures key !in m && FirstAssigned(assignments, key).Some? ==> Merge(m, assignments)[key] == FirstAssigned(assignments, key).value
    decreases |assignments|
  {
    if |assignments| > 0 {
      var (k, category) := assignments[0];
      var next := if k !in m || m[k] == category then m[k := category] else m;
      MergeFirstWins(next, assignments[1..], key);
    }
  }

  /** The categories the item trade data gives to base item type rows, keyed
      by the row index as text. */
  function TradeDataCategories(rows: seq<TradeDataRow>): (r: Option<map<string, ItemCategory>>)
    ensures r.Some? <==> Assignments(rows).Some?
    ensures r.Some? ==> forall key :: key in r.value <==>
              exists i :: 0 <= i < |Assignments(rows).value| && Assignments(rows).value[i].0 == key
  {
    match Assignments(rows)
    case None => None
    case Some(assignments) => Some(Merge(map[], assignments))
  }

  /** A key has a trade-data category exactly when some row assigns it one, and
      that category is the first one assigned. */
  lemma TradeDataCategoriesFirst(rows: seq<TradeDataRow>, key: string)
    requires Assignments(rows).Some?
    ensures var assignments := Assignments(rows).value;
            var r := TradeDataCategories(rows).value;
            && (key in r <==> FirstAssigned(assignments, key).Some?)
            && (key in r ==> r[key] == FirstAssigned(assignments, key).value)
  {
    MergeFirstWins(map[], Assignments(rows).value, key);
  }

  // ---------------------------------------------------------------------------
  // Resolving one base item type
  // ---------------------------------------------------------------------------

  /** A row of the base item types: its id path and its `InheritsFrom` path. */
  datatype BaseItemRow = BaseItemRow(id: string, inheritsFrom: string)

  /** No category anywhere (reported, skipped); a null category (skipped
      silently); or a category to write. */
  datatype Resolution = Missing | Ignored | Categorized(category: ItemCategory)

  const AwakenedGemIdSuffix: string := "Plus"

  const ClusterJewelIdPrefix: string := "JewelPassiveTreeExpansion"

  /** The two special cases that refine a category by the item's id. */
  function Refine(category: ItemCategory, id: string): (r: ItemCategory)
    ensures category != GemSupportGem && category != Jewel ==> r == category
    ensures category == GemSupportGem ==> (r == GemSupportGemplus <==> EndsWith(id, AwakenedGemIdSuffix))
    ensures category == Jewel ==> (r == JewelCluster <==> StartsWith(id, ClusterJewelIdPrefix))
    ensures r == category || r == GemSupportGemplus || r == JewelCluster
  {
    if category == GemSupportGem && EndsWith(id, AwakenedGemIdSuffix) then GemSupportGemplus
    else if category == Jewel && StartsWith(id, ClusterJewelIdPrefix) then JewelCluster
    else category
  }

  /** Row `index` of the base item types, given the trade-data categories. */
  function Resolve(index: nat, row: BaseItemRow, tradeData: map<string, ItemCategory>): (r: Resolution)
    ensures r.Categorized? <==>
              || NatToString(index) in tradeData
              || (LastSegment(row.inheritsFrom, '/') in InheritsFromCategoryMapping &&
                  InheritsFromCategoryMapping[LastSegment(row.inheritsFrom, '/')].Some?)
  {
    var id := LastSegment(row.id, '/');
    var inherits := LastSegment(row.inheritsFrom, '/');
    if NatToString(index) in tradeData then Categorized(Refine(tradeData[NatToString(index)], id))
    else if inherits !in InheritsFromCategoryMapping then Missing
    else
      match InheritsFromCategoryMapping[inherits]
      case None => Ignored
      case Some(category) => Categorized(Refine(category, id))
  }

  /** Trade data takes precedence: a row the trade data files resolves the
      same whatever its `InheritsFrom` path says, and always to a category. */
  lemma ResolveTradeDataFirst(index: nat, row: BaseItemRow, other: BaseItemRow, tradeData: map<string, ItemCategory>)
    requires NatToString(index) in tradeData && other.id == row.id
    ensures Resolve(index, row, tradeData) == Resolve(index, other, tradeData)
    ensures Resolve(index, row, tradeData).Categorized?
  {
  }

  /** A row has no category at all exactly when neither the trade data nor
      the `InheritsFrom` table knows it. */
  lemma ResolveMissing(index: nat, row: BaseItemRow, tradeData: map<string, ItemCategory>)
    ensures Resolve(index, row, tradeData) == Missing <==>
              NatToString(index) !in tradeData && LastSegment(row.inheritsFrom, '/') !in InheritsFromCategoryMapping
  {
  }

  /** A row is left out silently exactly when the trade data does not file it
      and its `InheritsFrom` entry is null. */
  lemma ResolveIgnored(index: nat, row: BaseItemRow, tradeData: map<string, ItemCategory>)
    ensures Resolve(index, row, tradeData) == Ignored <==>
              && NatToString(index) !in tradeData
              && LastSegment(row.inheritsFrom, '/') in InheritsFromCategoryMapping
              && InheritsFromCategoryMapping[LastSegment(row.inheritsFrom, '/')].None?
  {
  }

  /** A written category is the refinement, by the row's last id segment, of
      a category one of the two sources gives the row. */
  lemma ResolveCategorized(index: nat, row: BaseItemRow, tradeData: map<string, ItemCategory>)
    requires Resolve(index, row, tradeData).Categorized?
    ensures exists base :: Resolve(index, row, tradeData).category == Refine(base, LastSegment(row.id, '/')) &&
              ((NatToString(index) in tradeData && base == tradeData[NatToString(index)]) ||
               (NatToString(index) !in tradeData && LastSegment(row.inheritsFrom, '/') in InheritsFromCategoryMapping &&
                InheritsFromCategoryMapping[LastSegment(row.inheritsFrom, '/')] == Some(base)))
  {
    var inherits := LastSegment(row.inheritsFrom, '/');
    if NatToString(index) in tradeData {
      var base := tradeData[NatToString(index)];
      assert Resolve(index, row, tradeData).category == Refine(base, LastSegment(row.id, '/'));
    } else {
      var base := InheritsFromCategoryMapping[inherits].value;
      assert Resolve(index, row, tradeData).category == Refine(base, LastSegment(row.id, '/'));
    }
  }

  /** An awakened support gem: a row inheriting from `SupportSkillGem` (at
      the end of any path) whose id ends in `Plus` is filed under awakened
      support gems, unless the trade data files it. */
  lemma AwakenedSupportGem(index: nat, idPath: string, name: string, inheritsPath: string, tradeData: map<string, ItemCategory>)
    requires NatToString(index) !in tradeData
    requires '/' !in name && EndsWith(name, AwakenedGemIdSuffix)
    ensures Resolve(index, BaseItemRow(idPath + "/" + name, inheritsPath + "/" + "SupportSkillGem"), tradeData)
            == Categorized(GemSupportGemplus)
  {
    LastSegmentAfter(idPath, name);
    LastSegmentAfter(inheritsPath, "SupportSkillGem");
    assert InheritsFromCategoryMapping["SupportSkillGem"] == Some(GemSupportGem);
  }

  /** A cluster jewel: a row inheriting from `AbstractJewel` whose id starts
      with `JewelPassiveTreeExpansion` is filed under cluster jewels, unless
      the trade data files it. */
  lemma ClusterJewel(index: nat, idPath: string, name: string, inheritsPath: string, tradeData: map<string, ItemCategory>)
    requires NatToString(index) !in tradeData
    requires '/' !in name && StartsWith(name, ClusterJewelIdPrefix)
    ensures Resolve(index, BaseItemRow(idPath + "/" + name, inheritsPath + "/" + "AbstractJewel"), tradeData)
            == Categorized(JewelCluster)
  {
    LastSegmentAfter(idPath, name);
    LastSegmentAfter(inheritsPath, "AbstractJewel");
    assert InheritsFromCategoryMapping["AbstractJewel"] == Some(Jewel);
  }

  /** The last segment of `path + "/" + name` is `name` when `name` has no
      slash. */
  lemma LastSegmentAfter(path: string, name: string)
    requires '/' !in name
    ensures LastSegment(path + "/" + name, '/') == name
  {
    var s := path + "/" + name;
    assert s[|s| - |name|..] == name;
    assert s[|s| - |name| - 1] == '/';
  }

  // ---------------------------------------------------------------------------
  // The written pairs
  // ---------------------------------------------------------------------------

  /** The reference order of the output: the indices of the categorized
      rows, ascending. */
  function CategorizedRows(resolutions: seq<Resolution>): (f: seq<nat>)
    ensures forall k :: 0 <= k < |f| ==> f[k] < |resolutions| && resolutions[f[k]].Categorized?
    ensures forall k, l :: 0 <= k < l < |f| ==> f[k] < f[l]
    ensures forall i :: 0 <= i < |resolutions| && resolutions[i].Categorized? ==> i in f
    decreases |resolutions|
  {
    if |resolutions| == 0 then []
    else
      var n := |resolutions| - 1;
      var init := CategorizedRows(resolutions[..n]);
      assert forall i :: 0 <= i < n ==> resolutions[..n][i] == resolutions[i];
      if resolutions[n].Categorized? then init + [n] else init
  }

  /** The pairs written for rows resolved as `resolutions`: the categorized
      rows' (id, category) pairs, none for the others. */
  function Written(ids: seq<string>, resolutions: seq<Resolution>): (r: seq<(string, ItemCategory)>)
    requires |ids| == |resolutions|
    ensures |r| <= |ids|
    decreases |ids|
  {
    if |ids| == 0 then []
    else
      var n := |ids| - 1;
      var init := Written(ids[..n], resolutions[..n]);
      if resolutions[n].Categorized? then init + [(ids[n], resolutions[n].category)] else init
  }

  /** The written pairs follow the rows in order: one per categorized row,
      the `k`th for the `k`th categorized row. */
  lemma {:induction false} WrittenOrder(ids: seq<string>, resolutions: seq<Resolution>)
    requires |ids| == |resolutions|
    ensures var r := Written(ids, resolutions);
            var f := CategorizedRows(resolutions);
            && |r| == |f|
            && (forall k :: 0 <= k < |r| ==> r[k] == (ids[f[k]], resolutions[f[k]].category))
    decreases |ids|
  {
    if |ids| > 0 {
      var n := |ids| - 1;
      var ids0, resolutions0 := ids[..n], resolutions[..n];
      WrittenOrder(ids0, resolutions0);
      var r, init := Written(ids, resolutions), Written(ids0, resolutions0);
      var f, before := CategorizedRows(resolutions), CategorizedRows(resolutions0);
      if resolutions[n].Categorized? {
        assert r == init + [(ids[n], resolutions[n].category)];
        assert f == before + [n];
      } else {
        assert r == init && f == before;
      }
      forall k | 0 <= k < |r|
        ensures r[k] == (ids[f[k]], resolutions[f[k]].category)
      {
        if k < |init| {
          assert r[k] == init[k] && f[k] == before[k];
          assert ids0[before[k]] == ids[before[k]] && resolutions0[before[k]] == resolutions[before[k]];
        }
      }
    }
  }

  /** Every categorized row has its pair written, and every written pair comes
      from a categorized row. */
  lemma WrittenMembers(ids: seq<string>, resolutions: seq<Resolution>)
    requires |ids| == |resolutions|
    ensures var r := Written(ids, resolutions);
            && (forall i :: 0 <= i < |ids| && resolutions[i].Categorized? ==> (ids[i], resolutions[i].category) in r)
            && (forall p :: p in r ==> exists i :: 0 <= i < |ids| && p.0 == ids[i] && resolutions[i] == Categorized(p.1))
  {
    var r := Written(ids, resolutions);
    var f := CategorizedRows(resolutions);
    WrittenOrder(ids, resolutions);
    forall i | 0 <= i < |ids| && resolutions[i].Categorized?
      ensures (ids[i], resolutions[i].category) in r
    {
      var k :| 0 <= k < |f| && f[k] == i;
      assert r[k] == (ids[i], resolutions[i].category);
    }
    forall p | p in r
      ensures exists i :: 0 <= i < |ids| && p.0 == ids[i] && resolutions[i] == Categorized(p.1)
    {
      var k :| 0 <= k < |r| && r[k] == p;
      assert resolutions[f[k]] == Categorized(p.1);
    }
  }

  /** The last id segment of every base item type row. */
  function RowIds(rows: seq<BaseItemRow>): (r: seq<string>)
    ensures |r| == |rows|
  {
    seq(|rows|, i requires 0 <= i < |rows| => LastSegment(rows[i].id, '/'))
  }

  /** Every base item type row resolved under its own index. */
  function RowResolutions(rows: seq<BaseItemRow>, tradeData: map<string, ItemCategory>): (r: seq<Resolution>)
    ensures |r| == |rows|
  {
    seq(|rows|, i requires 0 <= i < |rows| => Resolve(i, rows[i], tradeData))
  }

  /** The (id, category) pairs written for the base item types, in row order. */
  function WriteBaseItemTypes(rows: seq<BaseItemRow>, tradeData: map<string, ItemCategory>): seq<(string, ItemCategory)> {
    Written(RowIds(rows), RowResolutions(rows, tradeData))
  }

  /** The "Default" object's entries: the base item types' pairs, then every
      prophecy under its id, then every monster variety under the last
      segment of its id. */
  function DefaultObject(items: seq<(string, ItemCategory)>, prophecyIds: seq<string>, monsterIds: seq<string>): (r: seq<(string, ItemCategory)>)
    ensures |r| == |items| + |prophecyIds| + |monsterIds|
    ensures r[..|items|] == items
    ensures forall i :: 0 <= i < |prophecyIds| ==> r[|items| + i] == (prophecyIds[i], Prophecy)
    ensures forall i :: 0 <= i < |monsterIds| ==> r[|items| + |prophecyIds| + i] == (LastSegment(monsterIds[i], '/'), MonsterBeast)
  {
    var prophecies := seq(|prophecyIds|, i requires 0 <= i < |prophecyIds| => (prophecyIds[i], Prophecy));
    var monsters := seq(|monsterIds|, i requires 0 <= i < |monsterIds| => (LastSegment(monsterIds[i], '/'), MonsterBeast));
    items + prophecies + monsters
  }

  /** The whole category export; it throws only where the trade data does. */
  function WriteCategories(baseItems: seq<BaseItemRow>, tradeRows: seq<TradeDataRow>,
                           prophecyIds: seq<string>, monsterIds: seq<string>): (r: Option<seq<(string, ItemCategory)>>)
    ensures r.Some? <==> Assignments(tradeRows).Some?
  {
    match TradeDataCategories(tradeRows)
    case None => None
    case Some(tradeData) => Some(DefaultObject(WriteBaseItemTypes(baseItems, tradeData), prophecyIds, monsterIds))
  }

  /** The base item part of the export: one pair per categorized row, in row
      order, under the row's last id segment. */
  lemma WriteCategoriesOrder(baseItems: seq<BaseItemRow>, tradeRows: seq<TradeDataRow>,
                             prophecyIds: seq<string>, monsterIds: seq<string>)
    requires Assignments(tradeRows).Some?
    ensures var tradeData := TradeDataCategories(tradeRows).value;
            var items := WriteBaseItemTypes(baseItems, tradeData);
            var f := CategorizedRows(RowResolutions(baseItems, tradeData));
            && WriteCategories(baseItems, tradeRows, prophecyIds, monsterIds).value[..|items|] == items
            && |items| == |f|
            && (forall k :: 0 <= k < |f| ==>
                  items[k] == (LastSegment(baseItems[f[k]].id, '/'), Resolve(f[k], baseItems[f[k]], tradeData).category))
  {
    var tradeData := TradeDataCategories(tradeRows).value;
    WrittenOrder(RowIds(baseItems), RowResolutions(baseItems, tradeData));
  }

  /** Every categorized row is written under its last id segment, and every
      pair written for the base item types comes from a categorized row. */
  lemma WriteBaseItemTypesRows(baseItems: seq<BaseItemRow>, tradeData: map<string, ItemCategory>)
    ensures var items := WriteBaseItemTypes(baseItems, tradeData);
            && (forall i :: 0 <= i < |baseItems| && Resolve(i, baseItems[i], tradeData).Categorized? ==>
                  (LastSegment(baseItems[i].id, '/'), Resolve(i, baseItems[i], tradeData).category) in items)
            && (forall p :: p in items ==>
                  exists i :: (0 <= i < |baseItems| && p.0 == LastSegment(baseItems[i].id, '/') &&
                               Resolve(i, baseItems[i], tradeData) == Categorized(p.1)))
  {
    var ids := RowIds(baseItems);
    var resolutions := RowResolutions(baseItems, tradeData);
    assert forall i :: 0 <= i < |baseItems| ==> ids[i] == LastSegment(baseItems[i].id, '/') && resolutions[i] == Resolve(i, baseItems[i], tradeData);
    WrittenMembers(ids, resolutions);
  }

  /** Another export writes each base item type and monster variety both
      ways: last id segment to name and name to last id segment. */
  function SlashSeparatedRecord(idPath: string, name: string): (r: seq<(string, string)>)
    ensures |r| == 2 && r[0].1 == name && r[1].0 == name && r[0].0 == r[1].1
    ensures '/' !in r[0].0 && EndsWith(idPath, r[0].0)
    ensures |r[0].0| < |idPath| ==> idPath[|idPath| - |r[0].0| - 1] == '/'
  {
    var id := LastSegment(idPath, '/');
    [(id, name), (name, id)]
  }
}

=== FILE: mod_selector.dfy ===
/** How the mods export keys each mod: by the names of the stats it uses.

    A mod row holds six stat keys (`StatsKey1` to `StatsKey6`), each a 64-bit
    row index into the Stats table or a sentinel meaning "no stat".  The
    selector collects the Stats ids of the keys that are set, in key order,
    drops repeats (keeping first occurrences), and joins them with single
    spaces; it also notes the number of the last key that is set, which bounds
    how many min/max pairs are written for the mod. */
module ModSelector {
  import opened Wrappers
  import opened Text

  const TotalNumberOfStats: nat := 6

  /** The key value that marks an unused stat slot. */
  const UndefinedValue: int := 18374403900871474942

  type UInt64 = x: int | 0 <= x < 0x1_0000_0000_0000_0000

  /** C#'s unchecked `(int)` cast of a `ulong`: the low 32 bits read as a
      two's-complement number. */
  function ToInt32(k: UInt64): (r: int)
    ensures Int32Min <= r <= Int32Max
    ensures (k - r) % 0x1_0000_0000 == 0
    ensures k <= Int32Max ==> r == k
  {
    var low := k % 0x1_0000_0000;
    if low <= Int32Max then low else low - 0x1_0000_0000
  }

  /** The sentinel's low 32 bits are 0xFEFEFEFE, which casts to a negative
      index: an unset key would throw if it were ever looked up. */
  lemma UndefinedCastsNegative()
    ensures ToInt32(UndefinedValue) < 0
  {
  }

  // ---------------------------------------------------------------------------
  // The last set key
  // ---------------------------------------------------------------------------

  /** The 1-based number of the last key that is set, or 0 when none is. */
  function LastValid(keys: seq<UInt64>): (r: nat)
    ensures r <= |keys|
    ensures r > 0 ==> keys[r - 1] != UndefinedValue
    ensures forall j :: r <= j < |keys| ==> keys[j] == UndefinedValue
    decreases |keys|
  {
    if |keys| == 0 then 0
    else if keys[|keys| - 1] != UndefinedValue then |keys|
    else LastValid(keys[..|keys| - 1])
  }

  /** No key is set exactly when the last set key's number is 0. */
  lemma LastValidZero(keys: seq<UInt64>)
    ensures LastValid(keys) == 0 <==> forall j :: 0 <= j < |keys| ==> keys[j] == UndefinedValue
  {
  }

  // ---------------------------------------------------------------------------
  // The names of the set keys
  // ---------------------------------------------------------------------------

  /** The Stats row a key points at, or `None` where indexing the table with
      the cast key would throw. */
  function StatName(statIds: seq<string>, k: UInt64): (r: Option<string>)
    ensures r.Some? <==> 0 <= ToInt32(k) < |statIds|
    ensures k <= Int32Max && k < |statIds| ==> r == Some(statIds[k])
  {
    var index := ToInt32(k);
    if 0 <= index < |statIds| then Some(statIds[index]) else None
  }

  /** The Stats ids of the set keys, in key order; `None` if any lookup
      throws. */
  function ValidNames(keys: seq<UInt64>, statIds: seq<string>): (r: Option<seq<string>>)
    ensures r.None? <==> exists j :: 0 <= j < |keys| && keys[j] != UndefinedValue && StatName(statIds, keys[j]).None?
    ensures r.Some? ==> |r.value| <= |keys|
    decreases |keys|
  {
    if |keys| == 0 then Some([])
    else
      var init := keys[..|keys| - 1];
      var k := keys[|keys| - 1];
      assert forall j :: 0 <= j < |init| ==> keys[j] == init[j];
      match ValidNames(init, statIds)
      case None => None
      case Some(names) =>
        if k == UndefinedValue then Some(names)
        else
          match StatName(statIds, k)
          case None => None
          case Some(name) => Some(names + [name])
  }

  /** The reference order of the names: the positions of the set keys,
      ascending. */
  function SetPositions(keys: seq<UInt64>): (g: seq<nat>)
    ensures forall k :: 0 <= k < |g| ==> g[k] < |keys| && keys[g[k]] != UndefinedValue
    ensures forall k, l :: 0 <= k < l < |g| ==> g[k] < g[l]
    ensures forall j :: 0 <= j < |keys| && keys[j] != UndefinedValue ==> j in g
    decreases |keys|
  {
    if |keys| == 0 then []
    else
      var n := |keys| - 1;
      var init := SetPositions(keys[..n]);
      assert forall j :: 0 <= j < n ==> keys[..n][j] == keys[j];
      if keys[n] != UndefinedValue then init + [n] else init
  }

  /** The names collected are the Stats ids of the set keys, one per set key,
      in key order. */
  lemma {:induction false} ValidNamesOrder(keys: seq<UInt64>, statIds: seq<string>)
    ensures var r := ValidNames(keys, statIds);
            var g := SetPositions(keys);
            r.Some? ==>
              && |r.value| == |g|
              && (forall k :: 0 <= k < |g| ==>
                    0 <= ToInt32(keys[g[k]]) < |statIds| && r.value[k] == statIds[ToInt32(keys[g[k]])])
    decreases |keys|
  {
    var r := ValidNames(keys, statIds);
    if |keys| > 0 && r.Some? {
      var init := keys[..|keys| - 1];
      ValidNamesSnoc(keys, statIds);
      ValidNamesOrder(init, statIds);
      NamesAtStep(keys, init, statIds, r.value, ValidNames(init, statIds).value, SetPositions(keys), SetPositions(init));
    }
  }

  /** The names-at-positions property carried from the keys before the last
      to all keys. */
  lemma NamesAtStep(keys: seq<UInt64>, init: seq<UInt64>, statIds: seq<string>,
                    r: seq<string>, r0: seq<string>, g: seq<nat>, g0: seq<nat>)
    requires |keys| > 0 && init == keys[..|keys| - 1]
    requires forall k :: 0 <= k < |g0| ==> g0[k] < |init|
    requires |r0| == |g0|
    requires forall k :: 0 <= k < |g0| ==>
               0 <= ToInt32(init[g0[k]]) < |statIds| && r0[k] == statIds[ToInt32(init[g0[k]])]
    requires keys[|keys| - 1] == UndefinedValue ==> r == r0 && g == g0
    requires keys[|keys| - 1] != UndefinedValue ==>
               && 0 <= ToInt32(keys[|keys| - 1]) < |statIds|
               && r == r0 + [statIds[ToInt32(keys[|keys| - 1])]]
               && g == g0 + [|keys| - 1]
    ensures |r| == |g|
    ensures forall k :: 0 <= k < |g| ==> 0 <= ToInt32(keys[g[k]]) < |statIds| && r[k] == statIds[ToInt32(keys[g[k]])]
  {
    forall k | 0 <= k < |g|
      ensures 0 <= ToInt32(keys[g[k]]) < |statIds| && r[k] == statIds[ToInt32(keys[g[k]])]
    {
      if k < |g0| {
        assert g[k] == g0[k] && r[k] == r0[k];
        assert keys[g0[k]] == init[g0[k]];
      }
    }
  }

  /** What the last key adds to the names and to the set positions. */
  lemma ValidNamesSnoc(keys: seq<UInt64>, statIds: seq<string>)
    requires |keys| > 0 && ValidNames(keys, statIds).Some?
    ensures var n := |keys| - 1;
            var r := ValidNames(keys, statIds).value;
            var r0 := ValidNames(keys[..n], statIds);
            && r0.Some?
            && (keys[n] == UndefinedValue ==> r == r0.value && SetPositions(keys) == SetPositions(keys[..n]))
            && (keys[n] != UndefinedValue ==>
                  && 0 <= ToInt32(keys[n]) < |statIds|
                  && r == r0.value + [statIds[ToInt32(keys[n])]]
                  && SetPositions(keys) == SetPositions(keys[..n]) + [n])
  {
  }

  // ---------------------------------------------------------------------------
  // Distinct, keeping first occurrences
  // ---------------------------------------------------------------------------

  predicate NoDuplicates(xs: seq<string>) {
    forall i, j :: 0 <= i < j < |xs| ==> xs[i] != xs[j]
  }

  /** The position of the first occurrence of `x`. */
  function FirstIndex(xs: seq<string>, x: string): (r: nat)
    requires x in xs
    ensures r < |xs| && xs[r] == x
    ensures forall j :: 0 <= j < r ==> xs[j] != x
  {
    if xs[0] == x then 0 else 1 + FirstIndex(xs[1..], x)
  }

  lemma {:induction false} FirstIndexPrefix(xs: seq<string>, n: nat, x: string)
    requires n <= |xs| && x in xs[..n]
    ensures FirstIndex(xs, x) == FirstIndex(xs[..n], x)
  {
    var i := FirstIndex(xs[..n], x);
    assert xs[i] == x;
  }

  /** `Distinct()` on a list: every element once, at its first occurrence. */
  function Distinct(xs: seq<string>): (r: seq<string>)
    ensures forall x :: x in r <==> x in xs
    ensures NoDuplicates(r)
    ensures forall i, j :: 0 <= i < j < |r| ==> FirstIndex(xs, r[i]) < FirstIndex(xs, r[j])
    decreases |xs|
  {
    if |xs| == 0 then []
    else
      var init := xs[..|xs| - 1];
      var x := xs[|xs| - 1];
      var d := Distinct(init);
      assert xs == init + [x];
      forall y | y in init
        ensures FirstIndex(xs, y) == FirstIndex(init, y)
      {
        FirstIndexPrefix(xs, |xs| - 1, y);
      }
      if x in d then d
      else
        assert FirstIndex(xs, x) == |xs| - 1;
        d + [x]
  }

  /** Appending an element not seen before appends it to the result. */
  lemma DistinctSnocNew(init: seq<string>, x: string)
    requires x !in init
    ensures Distinct(init + [x]) == Distinct(init) + [x]
  {
    var xs := init + [x];
    assert xs[..|xs| - 1] == init;
  }

  /** A list without repeats is its own `Distinct()`. */
  lemma {:induction false} DistinctOfNoDuplicates(xs: seq<string>)
    requires NoDuplicates(xs)
    ensures Distinct(xs) == xs
    decreases |xs|
  {
    if |xs| > 0 {
      var init := xs[..|xs| - 1];
      var x := xs[|xs| - 1];
      assert init + [x] == xs;
      assert NoDuplicates(init) by {
        forall i, j | 0 <= i < j < |init|
          ensures init[i] != init[j]
        {
          assert init[i] == xs[i] && init[j] == xs[j];
        }
      }
      assert x !in init by {
        forall i | 0 <= i < |init|
          ensures init[i] != x
        {
          assert init[i] == xs[i];
        }
      }
      DistinctOfNoDuplicates(init);
      DistinctSnocNew(init, x);
    }
  }

  // ---------------------------------------------------------------------------
  // RecordSelector
  // ---------------------------------------------------------------------------

  /** The group key and the last set key's number of one mod. */
  datatype Selection = Selection(statNames: string, lastValidStatNum: nat)

  /** The selector's loop over `StatsKey1` to `StatsKey6`; `None` where a set
      key indexes outside the Stats table. */
  method RecordSelector(keys: seq<UInt64>, statIds: seq<string>) returns (r: Option<Selection>)
    requires |keys| == TotalNumberOfStats
    ensures r.None? <==> exists j :: 0 <= j < |keys| && keys[j] != UndefinedValue && !(0 <= ToInt32(keys[j]) < |statIds|)
    ensures r.Some? ==> r.value.lastValidStatNum == LastValid(keys)
    ensures r.Some? ==> r.value.statNames == Join(Distinct(ValidNames(keys, statIds).value), " ")
  {
    var statNames: seq<string> := [];
    var lastValidStatsKey: nat := 0;
    var i := 1;
    while i <= TotalNumberOfStats
      invariant 1 <= i <= TotalNumberOfStats + 1
      invariant ValidNames(keys[..i - 1], statIds) == Some(statNames)
      invariant lastValidStatsKey == LastValid(keys[..i - 1])
    {
      var statsKey := keys[i - 1];
      SelectorStep(keys, i, statIds);
      if statsKey != UndefinedValue {
        var index := ToInt32(statsKey);
        if !(0 <= index < |statIds|) {
          NamesThrowExtend(keys, i, statIds);
          return None;
        }
        statNames := statNames + [statIds[index]];
        lastValidStatsKey := i;
      }
      i := i + 1;
    }
    assert keys[..TotalNumberOfStats] == keys;
    r := Some(Selection(Join(Distinct(statNames), " "), lastValidStatsKey));
  }

  /** What reading key `i` adds to the names and the last set key. */
  lemma SelectorStep(keys: seq<UInt64>, i: nat, statIds: seq<string>)
    requires 1 <= i <= |keys|
    ensures keys[i - 1] == UndefinedValue ==>
      ValidNames(keys[..i], statIds) == ValidNames(keys[..i - 1], statIds) &&
      LastValid(keys[..i]) == LastValid(keys[..i - 1])
    ensures keys[i - 1] != UndefinedValue ==> LastValid(keys[..i]) == i
    ensures keys[i - 1] != UndefinedValue && !(0 <= ToInt32(keys[i - 1]) < |statIds|) ==>
      ValidNames(keys[..i], statIds).None?
    ensures (keys[i - 1] != UndefinedValue && 0 <= ToInt32(keys[i - 1]) < |statIds| &&
             ValidNames(keys[..i - 1], statIds).Some?) ==>
      ValidNames(keys[..i], statIds) ==
        Some(ValidNames(keys[..i - 1], statIds).value + [statIds[ToInt32(keys[i - 1])]])
  {
    assert keys[..i][..i - 1] == keys[..i - 1];
  }

  /** A lookup that throws for key `i` makes the names of the whole key list
      throw. */
  lemma NamesThrowExtend(keys: seq<UInt64>, i: nat, statIds: seq<string>)
    requires 1 <= i <= |keys|
    requires ValidNames(keys[..i], statIds).None?
    ensures ValidNames(keys, statIds).None?
  {
    var j :| 0 <= j < i && keys[..i][j] != UndefinedValue && StatName(statIds, keys[..i][j]).None?;
    assert keys[j] == keys[..i][j];
  }
}

=== FILE: stat_descriptions.dfy ===
/** The stat-description block parser of the stats export.

    The input is the concatenation of the stat description files as trimmed,
    non-empty lines.  A line starting with `description` opens a block; the next
    line declares the internal stat ids (a count token, then the ids); then come
    language sections, each a count line followed by that many template lines.
    The first section is English; after a section, a line `lang "<Name>"` opens
    another section in that language, and any other line ends the block and is
    scanned again for the next `description`.

    The template lines themselves are handed to the stat-description record
    unparsed, so a record here is the ids and the (language, line) pairs it was
    fed, in order.  A parse that would throw in .NET (an `int.Parse` failure, a
    read past the last line) yields `None`. */
module StatDescriptions {
  import opened Wrappers
  import opened Text

  /** The name the first section of every block is filed under. */
  const English: string := "English"

  const DescriptionMarker: string := "description"

  const LangHeaderStart: string := "lang \""

  datatype StatLine = StatLine(language: string, raw: string)

  datatype Record = Record(ids: seq<string>, statLines: seq<StatLine>)

  /** The regular expression `^lang "(.*)"$` on a line without line breaks. */
  predicate IsLangHeader(line: string) {
    |line| >= |LangHeaderStart| + 1 && StartsWith(line, LangHeaderStart) && line[|line| - 1] == '"'
  }

  /** The captured name with its spaces removed. */
  function LangName(line: string): (name: string)
    requires IsLangHeader(line)
    ensures ' ' !in name
  {
    RemoveChar(line[|LangHeaderStart|..|line| - 1], ' ')
  }

  /** Each raw line paired with `language`, in order. */
  function Tag(language: string, raws: seq<string>): (r: seq<StatLine>)
    ensures |r| == |raws|
  {
    if |raws| == 0 then [] else [StatLine(language, raws[0])] + Tag(language, raws[1..])
  }

  lemma {:induction false} TagSnoc(language: string, raws: seq<string>, raw: string)
    ensures Tag(language, raws + [raw]) == Tag(language, raws) + [StatLine(language, raw)]
    decreases |raws|
  {
    if |raws| > 0 {
      assert (raws + [raw])[1..] == raws[1..] + [raw];
      TagSnoc(language, raws[1..], raw);
    }
  }

  lemma {:induction false} TagAt(language: string, raws: seq<string>)
    ensures forall i :: 0 <= i < |raws| ==> Tag(language, raws)[i] == StatLine(language, raws[i])
    decreases |raws|
  {
    if |raws| > 0 {
      TagAt(language, raws[1..]);
    }
  }

  /** The number of template lines a count line announces; a negative count
      makes the reading loop run zero times. */
  function SectionSize(count: int): nat {
    if count < 0 then 0 else count
  }

  function PrependLines(prefix: seq<StatLine>, r: Option<(seq<StatLine>, nat)>): Option<(seq<StatLine>, nat)> {
    match r
    case None => None
    case Some((xs, next)) => Some((prefix + xs, next))
  }

  /** Reads language sections starting at the count line `lines[c]`, with
      `language` as the current language.  Returns the stat lines read and the
      index of the first line not consumed. */
  function ReadSections(lines: seq<string>, c: nat, language: string): (r: Option<(seq<StatLine>, nat)>)
    ensures r.Some? ==> c < r.value.1 <= |lines|
    ensures r.Some? ==> ParseInt32(lines[c]).Some?
    ensures r.Some? ==> r.value.1 == |lines| || !IsLangHeader(lines[r.value.1])
    decreases |lines| - c
  {
    if c >= |lines| then None
    else match ParseInt32(lines[c])
      case None => None
      case Some(count) =>
        var next := c + 1 + SectionSize(count);
        if next > |lines| then None
        else
          var section := Tag(language, lines[c + 1..next]);
          if next < |lines| && IsLangHeader(lines[next]) then
            PrependLines(section, ReadSections(lines, next + 1, LangName(lines[next])))
          else Some((section, next))
  }

  /** Reads one block whose id line is `lines[k]`: the record and the index of
      the first line after the block. */
  function ReadBlock(lines: seq<string>, k: nat): (r: Option<(Record, nat)>)
    ensures r.Some? ==> k + 1 < r.value.1 <= |lines|
    ensures r.Some? ==> |Tokens(lines[k])| > 0 && ParseInt32(Tokens(lines[k])[0]).Some?
    ensures r.Some? ==> r.value.0.ids == Tokens(lines[k])[1..]
    ensures r.Some? ==> ReadSections(lines, k + 1, English) == Some((r.value.0.statLines, r.value.1))
  {
    if k >= |lines| then None
    else
      var tokens := Tokens(lines[k]);
      if |tokens| == 0 || ParseInt32(tokens[0]).None? then None
      else match ReadSections(lines, k + 1, English)
        case None => None
        case Some((statLines, next)) => Some((Record(tokens[1..], statLines), next))
  }

  /** The records of every block from `lines[k]` on, in order. */
  function Scan(lines: seq<string>, k: nat): Option<seq<Record>>
    decreases |lines| - k
  {
    if k >= |lines| then Some([])
    else if !StartsWith(lines[k], DescriptionMarker) then Scan(lines, k + 1)
    else match ReadBlock(lines, k + 1)
      case None => None
      case Some((record, next)) => Prepend([record], Scan(lines, next))
  }

  function Prepend<T>(prefix: seq<T>, r: Option<seq<T>>): Option<seq<T>> {
    match r
    case None => None
    case Some(xs) => Some(prefix + xs)
  }

  /** Without a `description` line from `lines[k]` on there are no records. */
  lemma {:induction false} ScanWithoutMarker(lines: seq<string>, k: nat)
    requires forall j :: k <= j < |lines| ==> !StartsWith(lines[j], DescriptionMarker)
    ensures Scan(lines, k) == Some([])
    decreases |lines| - k
  {
    if k < |lines| {
      ScanWithoutMarker(lines, k + 1);
    }
  }

  /** The scan can fail only at a `description` line. */
  lemma {:induction false} ScanFailsAtMarker(lines: seq<string>, k: nat)
    requires Scan(lines, k).None?
    ensures exists j :: k <= j < |lines| && StartsWith(lines[j], DescriptionMarker)
    decreases |lines| - k
  {
    if k < |lines| && !StartsWith(lines[k], DescriptionMarker) {
      ScanFailsAtMarker(lines, k + 1);
    }
  }

  /** A block whose id line starts with a number reads as its ids and the
      stat lines of its sections. */
  lemma ReadBlockAt(lines: seq<string>, k: nat, statLines: seq<StatLine>, next: nat)
    requires k < |lines| && |Tokens(lines[k])| > 0 && ParseInt32(Tokens(lines[k])[0]).Some?
    requires ReadSections(lines, k + 1, English) == Some((statLines, next))
    ensures ReadBlock(lines, k) == Some((Record(Tokens(lines[k])[1..], statLines), next))
  {
  }

  /** A line that does not open a block is skipped. */
  lemma ScanSkipAt(lines: seq<string>, k: nat)
    requires k < |lines| && !StartsWith(lines[k], DescriptionMarker)
    ensures Scan(lines, k) == Scan(lines, k + 1)
  {
  }

  /** A line that opens a block is followed by the block's record, then by
      the records of what the block leaves. */
  lemma ScanBlockAt(lines: seq<string>, k: nat, record: Record, next: nat)
    requires k < |lines| && StartsWith(lines[k], DescriptionMarker)
    requires ReadBlock(lines, k + 1) == Some((record, next))
    ensures Scan(lines, k) == Prepend([record], Scan(lines, next))
  {
  }

  lemma PrependLinesAssoc(a: seq<StatLine>, b: seq<StatLine>, r: Option<(seq<StatLine>, nat)>)
    ensures PrependLines(a, PrependLines(b, r)) == PrependLines(a + b, r)
  {
    if r.Some? {
      assert a + (b + r.value.0) == (a + b) + r.value.0;
    }
  }

  lemma PrependAssoc<T>(a: seq<T>, b: seq<T>, r: Option<seq<T>>)
    ensures Prepend(a, Prepend(b, r)) == Prepend(a + b, r)
  {
    if r.Some? {
      assert a + (b + r.value) == (a + b) + r.value;
    }
  }

  /** One section read at the count line `lines[c]`: the sections from `c`
      are its template lines, then either the end of the block at `next` or
      the sections of the language that `lines[next]` names. */
  lemma ReadSectionsStep(lines: seq<string>, c: nat, count: int, next: nat, language: string)
    requires c < |lines| && ParseInt32(lines[c]) == Some(count)
    requires next == c + 1 + SectionSize(count) <= |lines|
    ensures ReadSections(lines, c, language) ==
              if next < |lines| && IsLangHeader(lines[next])
              then PrependLines(Tag(language, lines[c + 1..next]), ReadSections(lines, next + 1, LangName(lines[next])))
              else Some((Tag(language, lines[c + 1..next]), next))
  {
  }

  /** A negative count reads no template lines: the line after the count
      line is the peeked one. */
  lemma NegativeCountReadsNothing(lines: seq<string>, c: nat, count: int, language: string)
    requires c < |lines| && ParseInt32(lines[c]) == Some(count) && count < 0
    ensures c + 1 < |lines| && IsLangHeader(lines[c + 1]) ==>
              ReadSections(lines, c, language) == ReadSections(lines, c + 2, LangName(lines[c + 1]))
    ensures !(c + 1 < |lines| && IsLangHeader(lines[c + 1])) ==> ReadSections(lines, c, language) == Some(([], c + 1))
  {
    ReadSectionsStep(lines, c, count, c + 1, language);
    assert Tag(language, lines[c + 1..c + 1]) == [];
    if c + 1 < |lines| && IsLangHeader(lines[c + 1]) {
      var rest := ReadSections(lines, c + 2, LangName(lines[c + 1]));
      assert rest.Some? ==> [] + rest.value.0 == rest.value.0;
    }
  }

  /** A block whose count line announces more template lines than are left
      makes the whole parse fail. */
  lemma TruncatedBlockFails()
    ensures Scan(["description", "1 x", "2", "t"], 0) == None
  {
    var lines := ["description", "1 x", "2", "t"];
    ParseNatToString(2);
    assert NatToString(2) == "2";
    assert ReadSections(lines, 2, English) == None;
    assert ReadBlock(lines, 1) == None;
  }

  /** The inner reading loop: the `count` template lines after the count
      line at `countIdx`, tagged with `language`, and the index of the last one
      (`countIdx` itself when there are none). */
  method ReadTemplateLines(lines: seq<string>, countIdx: nat, count: int, language: string)
    returns (section: Option<seq<StatLine>>, lineIdx: nat)
    requires countIdx < |lines|
    ensures section.None? <==> countIdx + 1 + SectionSize(count) > |lines|
    ensures section.Some? ==> lineIdx == countIdx + SectionSize(count)
                              && section.value == Tag(language, lines[countIdx + 1..lineIdx + 1])
  {
    var statLines: seq<StatLine> := [];
    lineIdx := countIdx;
    var i := 0;
    while i < count
      invariant 0 <= i <= SectionSize(count)
      invariant lineIdx == countIdx + i < |lines|
      invariant statLines == Tag(language, lines[countIdx + 1..lineIdx + 1])
    {
      if lineIdx + 1 >= |lines| {
        return None, lineIdx;
      }
      lineIdx := lineIdx + 1;
      assert lines[countIdx + 1..lineIdx + 1] == lines[countIdx + 1..lineIdx] + [lines[lineIdx]];
      TagSnoc(language, lines[countIdx + 1..lineIdx], lines[lineIdx]);
      statLines := statLines + [StatLine(language, lines[lineIdx])];
      i := i + 1;
    }
    return Some(statLines), lineIdx;
  }

  /** One pass of the language loop: the count line after `lineIdx`, its
      template lines, and a peek at the line after them.  `last` is the last
      line consumed, and `more` says whether that peeked line was a language
      header, consumed as such, naming `nextLanguage`. */
  method ReadSection(lines: seq<string>, lineIdx: nat, language: string)
    returns (section: Option<seq<StatLine>>, last: nat, more: bool, nextLanguage: string)
    requires lineIdx < |lines|
    ensures section.None? ==> ReadSections(lines, lineIdx + 1, language) == None
    ensures section.Some? ==> lineIdx < last < |lines|
    ensures section.Some? && more ==>
              ReadSections(lines, lineIdx + 1, language) == PrependLines(section.value, ReadSections(lines, last + 1, nextLanguage))
    ensures section.Some? && !more ==> ReadSections(lines, lineIdx + 1, language) == Some((section.value, last + 1))
  {
    nextLanguage := language;
    more := false;
    // the count line
    if lineIdx + 1 >= |lines| {
      return None, lineIdx, more, nextLanguage;
    }
    var countIdx := lineIdx + 1;
    var textCount := ParseInt32(lines[countIdx]);
    if textCount.None? {
      return None, lineIdx, more, nextLanguage;
    }
    section, last := ReadTemplateLines(lines, countIdx, textCount.value, language);
    if section.None? {
      return;
    }
    var next := last + 1;
    ReadSectionsStep(lines, countIdx, textCount.value, next, language);
    // peek: a language header opens another section, anything else ends the block
    if next < |lines| && IsLangHeader(lines[next]) {
      last := next;
      more := true;
      nextLanguage := LangName(lines[next]);
    }
  }

  /** The language loop of one block: `lineIdx` is the index of the id line on
      entry and the last line consumed on exit. */
  method ReadLanguages(lines: seq<string>, idIdx: nat) returns (r: Option<(seq<StatLine>, nat)>)
    requires idIdx < |lines|
    ensures r.None? <==> ReadSections(lines, idIdx + 1, English).None?
    ensures r.Some? ==> ReadSections(lines, idIdx + 1, English) == Some((r.value.0, r.value.1 + 1))
  {
    var lineIdx := idIdx;
    ghost var sections := ReadSections(lines, idIdx + 1, English);
    var statLines: seq<StatLine> := [];
    // the first language is always English
    var language := English;
    assert sections.Some? ==> [] + sections.value.0 == sections.value.0;
    while true
      invariant idIdx <= lineIdx < |lines|
      invariant sections == PrependLines(statLines, ReadSections(lines, lineIdx + 1, language))
      decreases |lines| - lineIdx
    {
      var section, last, more, nextLanguage := ReadSection(lines, lineIdx, language);
      if section.None? {
        return None;
      }
      PrependLinesAssoc(statLines, section.value, ReadSections(lines, last + 1, nextLanguage));
      statLines := statLines + section.value;
      lineIdx := last;
      if !more {
        break;
      }
      language := nextLanguage;
    }
    return Some((statLines, lineIdx));
  }

  /** One block of the export's parsing loop, from its id line. */
  method ReadStatDescription(lines: seq<string>, idIdx: nat) returns (r: Option<(Record, nat)>)
    requires idIdx < |lines|
    ensures r.None? <==> ReadBlock(lines, idIdx).None?
    ensures r.Some? ==> ReadBlock(lines, idIdx) == Some((r.value.0, r.value.1 + 1))
  {
    var ids := Tokens(lines[idIdx]);
    if |ids| == 0 || ParseInt32(ids[0]).None? {
      return None;
    }
    // the leading count token is parsed but not compared with the ids
    var statLines := ReadLanguages(lines, idIdx);
    if statLines.None? {
      return None;
    }
    return Some((Record(ids[1..], statLines.value.0), statLines.value.1));
  }

  /** The export's parsing loop over all lines. */
  method ParseStatDescriptions(lines: seq<string>) returns (r: Option<seq<Record>>)
    ensures r == Scan(lines, 0)
  {
    var records: seq<Record> := [];
    var lineIdx := 0;
    assert Scan(lines, 0).Some? ==> [] + Scan(lines, 0).value == Scan(lines, 0).value;
    while lineIdx < |lines|
      invariant 0 <= lineIdx <= |lines|
      invariant Scan(lines, 0) == Prepend(records, Scan(lines, lineIdx))
      decreases |lines| - lineIdx
    {
      if StartsWith(lines[lineIdx], DescriptionMarker) {
        if lineIdx + 1 >= |lines| {
          return None;
        }
        var block := ReadStatDescription(lines, lineIdx + 1);
        if block.None? {
          return None;
        }
        var (record, last) := block.value;
        PrependAssoc(records, [record], Scan(lines, last + 1));
        records := records + [record];
        lineIdx := last;
      }
      lineIdx := lineIdx + 1;
    }
    assert records + [] == records;
    return Some(records);
  }
}

=== FILE: stat_descriptions_format.dfy ===
/** The line format the block parser reads, as a document of segments, and
    the round trip: scanning the lines of a well-formed document yields one
    record per block, with the ids after the id line's count token and every
    template line tagged with the language of its section. */
module StatDescriptionsFormat {
  import opened Wrappers
  import opened Text
  import opened StatDescriptions

  /** A section after the first: the name written in its `lang` header and its
      template lines. */
  datatype Section = Section(language: string, templates: seq<string>)

  /** A block: the line opening it, the id line, the English template lines
      and the sections in other languages. */
  datatype Block = Block(marker: string, idLine: string, english: seq<string>, others: seq<Section>)

  /** A line outside every block, or a block. */
  datatype Segment = Other(line: string) | Described(block: Block)

  function LangHeader(name: string): string {
    LangHeaderStart + name + "\""
  }

  /** A count line followed by the template lines it counts. */
  function SectionLines(templates: seq<string>): (ls: seq<string>)
    ensures |ls| == |templates| + 1
  {
    [NatToString(|templates|)] + templates
  }

  function OthersLines(others: seq<Section>): seq<string> {
    if |others| == 0 then []
    else [LangHeader(others[0].language)] + (SectionLines(others[0].templates) + OthersLines(others[1..]))
  }

  function BlockLines(b: Block): seq<string> {
    [b.marker, b.idLine] + (SectionLines(b.english) + OthersLines(b.others))
  }

  function SegmentLines(segment: Segment): (ls: seq<string>)
    ensures |ls| > 0
  {
    match segment
    case Other(line) => [line]
    case Described(b) => BlockLines(b)
  }

  function Serialize(doc: seq<Segment>): seq<string> {
    if |doc| == 0 then [] else SegmentLines(doc[0]) + Serialize(doc[1..])
  }

  /** Every count fits in 32 bits. */
  predicate SectionsFit(others: seq<Section>) {
    |others| == 0 || (|others[0].templates| <= Int32Max && SectionsFit(others[1..]))
  }

  /** A block the parser can read back: its first line opens a block, its id
      line starts with a number, and every count fits in 32 bits. */
  predicate BlockWellFormed(b: Block) {
    && StartsWith(b.marker, DescriptionMarker)
    && |Tokens(b.idLine)| > 0 && ParseInt32(Tokens(b.idLine)[0]).Some?
    && |b.english| <= Int32Max
    && SectionsFit(b.others)
  }

  /** A line outside the blocks neither opens a block nor could be taken for
      the language header of the block before it. */
  predicate SegmentWellFormed(segment: Segment) {
    match segment
    case Other(line) => !StartsWith(line, DescriptionMarker) && !IsLangHeader(line)
    case Described(b) => BlockWellFormed(b)
  }

  predicate WellFormed(doc: seq<Segment>) {
    |doc| == 0 || (SegmentWellFormed(doc[0]) && WellFormed(doc[1..]))
  }

  /** The stat lines of the sections after the first. */
  function OthersStatLines(others: seq<Section>): seq<StatLine> {
    if |others| == 0 then []
    else Tag(RemoveChar(others[0].language, ' '), others[0].templates) + OthersStatLines(others[1..])
  }

  function BlockRecord(b: Block): Record
    requires |Tokens(b.idLine)| > 0
  {
    Record(Tokens(b.idLine)[1..], Tag(English, b.english) + OthersStatLines(b.others))
  }

  /** The records a well-formed document describes. */
  function Expected(doc: seq<Segment>): seq<Record>
    requires WellFormed(doc)
  {
    if |doc| == 0 then []
    else
      var rest := Expected(doc[1..]);
      match doc[0]
      case Other(_) => rest
      case Described(b) => [BlockRecord(b)] + rest
  }

  lemma LangHeaderName(name: string)
    ensures IsLangHeader(LangHeader(name))
    ensures LangName(LangHeader(name)) == RemoveChar(name, ' ')
  {
    var h := LangHeader(name);
    assert h[..|LangHeaderStart|] == LangHeaderStart;
    assert h[|LangHeaderStart|..|h| - 1] == name;
  }

  /** A line that opens a block is never a language header. */
  lemma MarkerNotHeader(line: string)
    requires StartsWith(line, DescriptionMarker)
    ensures !IsLangHeader(line)
  {
    assert line[0] == DescriptionMarker[0];
  }

  // ---------------------------------------------------------------------------
  // Where the lines of a document sit
  // ---------------------------------------------------------------------------

  /** The number of lines of the sections of a block. */
  function SectionsSize(templates: seq<string>, others: seq<Section>): nat
    decreases others
  {
    1 + |templates| + if |others| == 0 then 0 else 1 + SectionsSize(others[0].templates, others[1..])
  }

  function SegmentSize(segment: Segment): nat {
    match segment
    case Other(_) => 1
    case Described(b) => 2 + SectionsSize(b.english, b.others)
  }

  /** The sections of a block sit in `lines` from the count line `lines[c]`
      on, as the parser sees them: the count line reads as the number of
      template lines, and each further section opens with a header naming its
      language. */
  predicate SectionsLaid(lines: seq<string>, c: nat, templates: seq<string>, others: seq<Section>)
    decreases others
  {
    && c + 1 + |templates| <= |lines|
    && ParseInt32(lines[c]) == Some(|templates|)
    && lines[c + 1..c + 1 + |templates|] == templates
    && (|others| > 0 ==>
          && c + 1 + |templates| < |lines|
          && IsLangHeader(lines[c + 1 + |templates|])
          && LangName(lines[c + 1 + |templates|]) == RemoveChar(others[0].language, ' ')
          && SectionsLaid(lines, c + 2 + |templates|, others[0].templates, others[1..]))
  }

  predicate SegmentLaid(lines: seq<string>, k: nat, segment: Segment) {
    && k + SegmentSize(segment) <= |lines|
    && match segment
       case Other(line) => lines[k] == line
       case Described(b) =>
         lines[k] == b.marker && lines[k + 1] == b.idLine && SectionsLaid(lines, k + 2, b.english, b.others)
  }

  /** The lines of the document sit in `lines` from `k` to the end, segment
      by segment. */
  predicate Placed(lines: seq<string>, k: nat, doc: seq<Segment>)
    decreases doc
  {
    if |doc| == 0 then k == |lines|
    else
      && k + SegmentSize(doc[0]) <= |lines|
      && lines[k..k + SegmentSize(doc[0])] == SegmentLines(doc[0])
      && Placed(lines, k + SegmentSize(doc[0]), doc[1..])
  }

  /** `lines[lo..hi]` holds `xs + ys`, split at `mid`. */
  lemma SliceAppend(lines: seq<string>, lo: nat, mid: nat, hi: nat, xs: seq<string>, ys: seq<string>)
    requires mid == lo + |xs| && hi == mid + |ys| && hi <= |lines| && lines[lo..hi] == xs + ys
    ensures lines[lo..mid] == xs && lines[mid..hi] == ys
  {
    assert lines[lo..mid] == lines[lo..hi][..|xs|];
    assert lines[mid..hi] == lines[lo..hi][|xs|..];
  }

  /** `lines[lo..hi]` holds `[x] + xs`, with `mid == lo + 1`. */
  lemma SliceCons(lines: seq<string>, lo: nat, mid: nat, hi: nat, x: string, xs: seq<string>)
    requires mid == lo + 1 && hi == mid + |xs| && hi <= |lines| && lines[lo..hi] == [x] + xs
    ensures lines[lo] == x && lines[mid..hi] == xs
  {
    assert lines[lo] == lines[lo..hi][0];
    assert lines[mid..hi] == lines[lo..hi][1..];
  }

  /** `lines[k..]` holds `xs + ys`, split at `mid`. */
  lemma SuffixAppend(lines: seq<string>, k: nat, mid: nat, xs: seq<string>, ys: seq<string>)
    requires mid == k + |xs| && k <= |lines| && lines[k..] == xs + ys
    ensures mid <= |lines| && lines[k..mid] == xs && lines[mid..] == ys
  {
    assert lines[k..mid] == lines[k..][..|xs|];
    assert lines[mid..] == lines[k..][|xs|..];
  }

  lemma {:induction false} SectionsLinesSize(templates: seq<string>, others: seq<Section>)
    ensures |SectionLines(templates) + OthersLines(others)| == SectionsSize(templates, others)
    decreases others
  {
    if |others| > 0 {
      SectionsLinesSize(others[0].templates, others[1..]);
    }
  }

  /** `lines[lo..hi]` holds [x] + xs + ys, with `mid == lo + 1 + |xs|`. */
  lemma SplitTriple(lines: seq<string>, lo: nat, mid: nat, hi: nat, x: string, xs: seq<string>, ys: seq<string>)
    requires mid == lo + 1 + |xs| && hi == mid + |ys| && hi <= |lines| && lines[lo..hi] == [x] + xs + ys
    ensures lines[lo] == x && lines[lo + 1..mid] == xs && lines[mid..hi] == ys
  {
    assert [x] + xs + ys == [x] + (xs + ys);
    SliceCons(lines, lo, lo + 1, hi, x, xs + ys);
    SliceAppend(lines, lo + 1, mid, hi, xs, ys);
  }

  /** A count line, its template lines and what follows them, taken apart; the
      count line is left uninterpreted here. */
  lemma SplitSection(lines: seq<string>, c: nat, end: nat, count: string, templates: seq<string>, rest: seq<string>)
    requires end == c + 1 + |templates| + |rest| <= |lines|
    requires lines[c..end] == [count] + templates + rest
    ensures lines[c] == count
    ensures lines[c + 1..c + 1 + |templates|] == templates
    ensures lines[c + 1 + |templates|..end] == rest
  {
    SplitTriple(lines, c, c + 1 + |templates|, end, count, templates, rest);
  }

  /** The lines of a section followed by `rest`, taken apart. */
  lemma SectionsParts(lines: seq<string>, c: nat, end: nat, templates: seq<string>, rest: seq<string>)
    requires end == c + 1 + |templates| + |rest| <= |lines|
    requires lines[c..end] == SectionLines(templates) + rest
    ensures lines[c] == NatToString(|templates|)
    ensures lines[c + 1..c + 1 + |templates|] == templates
    ensures lines[c + 1 + |templates|..end] == rest
  {
    SplitSection(lines, c, end, NatToString(|templates|), templates, rest);
  }

  /** The lines of the further sections of a block, taken apart after the
      header of the first. */
  lemma OthersParts(lines: seq<string>, h: nat, mid: nat, end: nat, others: seq<Section>)
    requires |others| > 0 && mid == h + 1
    requires end == mid + SectionsSize(others[0].templates, others[1..]) <= |lines|
    requires lines[h..end] == OthersLines(others)
    ensures lines[h] == LangHeader(others[0].language)
    ensures lines[mid..end] == SectionLines(others[0].templates) + OthersLines(others[1..])
  {
    SectionsLinesSize(others[0].templates, others[1..]);
    SliceCons(lines, h, mid, end, LangHeader(others[0].language),
              SectionLines(others[0].templates) + OthersLines(others[1..]));
  }

  /** The sections of a block sit in `lines` from `c` on, line by line as
      written. */
  predicate SectionsRaw(lines: seq<string>, c: nat, templates: seq<string>, others: seq<Section>)
    decreases others
  {
    && c + 1 + |templates| <= |lines|
    && lines[c] == NatToString(|templates|)
    && lines[c + 1..c + 1 + |templates|] == templates
    && (|others| > 0 ==>
          && c + 1 + |templates| < |lines|
          && lines[c + 1 + |templates|] == LangHeader(others[0].language)
          && SectionsRaw(lines, c + 2 + |templates|, others[0].templates, others[1..]))
  }

  lemma {:induction false} SectionsRawOf(lines: seq<string>, c: nat, end: nat, templates: seq<string>, others: seq<Section>)
    requires end == c + SectionsSize(templates, others) <= |lines|
    requires lines[c..end] == SectionLines(templates) + OthersLines(others)
    ensures SectionsRaw(lines, c, templates, others)
    decreases others
  {
    SectionsLinesSize(templates, others);
    SectionsParts(lines, c, end, templates, OthersLines(others));
    if |others| > 0 {
      OthersParts(lines, c + 1 + |templates|, c + 2 + |templates|, end, others);
      SectionsRawOf(lines, c + 2 + |templates|, end, others[0].templates, others[1..]);
    }
  }

  lemma {:induction false} SectionsLaidOf(lines: seq<string>, c: nat, templates: seq<string>, others: seq<Section>)
    requires SectionsRaw(lines, c, templates, others)
    requires |templates| <= Int32Max && SectionsFit(others)
    ensures SectionsLaid(lines, c, templates, others)
    decreases others
  {
    if |others| > 0 {
      SectionsLaidOf(lines, c + 2 + |templates|, others[0].templates, others[1..]);
      SectionsLaidCons(lines, c, templates, others);
    } else {
      SectionsLaidLast(lines, c, templates, others);
    }
  }

  /** `SectionsLaid` for a last section, from its lines. */
  lemma SectionsLaidLast(lines: seq<string>, c: nat, templates: seq<string>, others: seq<Section>)
    requires |others| == 0 && c + 1 + |templates| <= |lines| && |templates| <= Int32Max
    requires lines[c] == NatToString(|templates|)
    requires lines[c + 1..c + 1 + |templates|] == templates
    ensures SectionsLaid(lines, c, templates, others)
  {
    ParseNatToString(|templates|);
  }

  /** `SectionsLaid` for a section with further ones, from its lines and
      the header after them. */
  lemma SectionsLaidCons(lines: seq<string>, c: nat, templates: seq<string>, others: seq<Section>)
    requires |others| > 0 && c + 1 + |templates| < |lines| && |templates| <= Int32Max
    requires lines[c] == NatToString(|templates|)
    requires lines[c + 1..c + 1 + |templates|] == templates
    requires lines[c + 1 + |templates|] == LangHeader(others[0].language)
    requires SectionsLaid(lines, c + 2 + |templates|, others[0].templates, others[1..])
    ensures SectionsLaid(lines, c, templates, others)
  {
    ParseNatToString(|templates|);
    LangHeaderName(others[0].language);
  }

  lemma SegmentLinesSize(segment: Segment)
    ensures |SegmentLines(segment)| == SegmentSize(segment)
  {
    if segment.Described? {
      SectionsLinesSize(segment.block.english, segment.block.others);
    }
  }

  lemma SegmentLaidOf(lines: seq<string>, k: nat, segment: Segment)
    requires SegmentWellFormed(segment)
    requires k + SegmentSize(segment) <= |lines|
    requires lines[k..k + SegmentSize(segment)] == SegmentLines(segment)
    ensures SegmentLaid(lines, k, segment)
  {
    var end := k + SegmentSize(segment);
    match segment
    case Other(line) =>
      assert lines[k] == lines[k..end][0];
    case Described(b) =>
      SectionsLinesSize(b.english, b.others);
      SliceAppend(lines, k, k + 2, end, [b.marker, b.idLine], SectionLines(b.english) + OthersLines(b.others));
      assert lines[k] == lines[k..k + 2][0] && lines[k + 1] == lines[k..k + 2][1];
      SectionsRawOf(lines, k + 2, end, b.english, b.others);
      SectionsLaidOf(lines, k + 2, b.english, b.others);
  }

  lemma {:induction false} PlacedOf(lines: seq<string>, k: nat, doc: seq<Segment>)
    requires k <= |lines| && lines[k..] == Serialize(doc)
    ensures Placed(lines, k, doc)
    decreases doc
  {
    if |doc| > 0 {
      SegmentLinesSize(doc[0]);
      SuffixAppend(lines, k, k + SegmentSize(doc[0]), SegmentLines(doc[0]), Serialize(doc[1..]));
      PlacedOf(lines, k + SegmentSize(doc[0]), doc[1..]);
      PlacedCons(lines, k, doc);
    }
  }

  lemma PlacedCons(lines: seq<string>, k: nat, doc: seq<Segment>)
    requires |doc| > 0 && k + SegmentSize(doc[0]) <= |lines|
    requires lines[k..k + SegmentSize(doc[0])] == SegmentLines(doc[0])
    requires Placed(lines, k + SegmentSize(doc[0]), doc[1..])
    ensures Placed(lines, k, doc)
  {
  }

  // ---------------------------------------------------------------------------
  // Reading a laid-out document back
  // ---------------------------------------------------------------------------

  /** A section at the count line `lines[c]` whose template lines are
      followed by no language header (or by nothing). */
  lemma ReadSectionThenEnd(lines: seq<string>, c: nat, language: string, templates: seq<string>, end: nat)
    requires c < |lines| && ParseInt32(lines[c]) == Some(|templates|)
    requires end == c + 1 + |templates| <= |lines| && lines[c + 1..end] == templates
    requires end == |lines| || !IsLangHeader(lines[end])
    ensures ReadSections(lines, c, language) == Some((Tag(language, templates), end))
  {
    ReadSectionsStep(lines, c, |templates|, end, language);
  }

  /** A section at the count line `lines[c]` whose template lines are
      followed by a header naming `name`, given what the sections from after
      that header read back as. */
  lemma ReadSectionThenOthers(lines: seq<string>, c: nat, language: string, templates: seq<string>,
                              name: string, rest: seq<StatLine>, end: nat)
    requires c < |lines| && ParseInt32(lines[c]) == Some(|templates|)
    requires c + 1 + |templates| < |lines| && lines[c + 1..c + 1 + |templates|] == templates
    requires IsLangHeader(lines[c + 1 + |templates|]) && LangName(lines[c + 1 + |templates|]) == name
    requires ReadSections(lines, c + 2 + |templates|, name) == Some((rest, end))
    ensures ReadSections(lines, c, language) == Some((Tag(language, templates) + rest, end))
  {
    ReadSectionsStep(lines, c, |templates|, c + 1 + |templates|, language);
  }

  /** Laid-out sections followed by a line that is no language header (or by
      nothing) read back as their tagged template lines. */
  lemma {:induction false} ReadSectionsOf(lines: seq<string>, c: nat, end: nat, language: string,
                                          templates: seq<string>, others: seq<Section>)
    requires SectionsLaid(lines, c, templates, others) && end == c + SectionsSize(templates, others) <= |lines|
    requires end == |lines| || !IsLangHeader(lines[end])
    ensures ReadSections(lines, c, language) == Some((Tag(language, templates) + OthersStatLines(others), end))
    decreases others
  {
    if |others| == 0 {
      ReadSectionThenEnd(lines, c, language, templates, end);
      assert Tag(language, templates) + OthersStatLines(others) == Tag(language, templates);
    } else {
      ReadSectionsOf(lines, c + 2 + |templates|, end, RemoveChar(others[0].language, ' '), others[0].templates, others[1..]);
      ReadSectionsOfCons(lines, c, language, templates, others, end);
    }
  }

  /** The step of `ReadSectionsOf` for a block with a further section, given
      what the sections after the header read back as. */
  lemma ReadSectionsOfCons(lines: seq<string>, c: nat, language: string,
                           templates: seq<string>, others: seq<Section>, end: nat)
    requires |others| > 0 && SectionsLaid(lines, c, templates, others)
    requires ReadSections(lines, c + 2 + |templates|, RemoveChar(others[0].language, ' ')) ==
               Some((Tag(RemoveChar(others[0].language, ' '), others[0].templates) + OthersStatLines(others[1..]), end))
    ensures ReadSections(lines, c, language) == Some((Tag(language, templates) + OthersStatLines(others), end))
  {
    var name := RemoveChar(others[0].language, ' ');
    ReadSectionThenOthers(lines, c, language, templates, name,
                          Tag(name, others[0].templates) + OthersStatLines(others[1..]), end);
  }

  /** What follows a block is never taken for one of its language headers. */
  lemma NextNotHeader(lines: seq<string>, k: nat, doc: seq<Segment>)
    requires WellFormed(doc) && Placed(lines, k, doc)
    ensures k == |lines| || !IsLangHeader(lines[k])
  {
    if |doc| > 0 {
      SegmentLinesSize(doc[0]);
      assert lines[k] == lines[k..k + SegmentSize(doc[0])][0];
      match doc[0]
      case Other(_) =>
      case Described(b) => MarkerNotHeader(b.marker);
    }
  }

  /** A laid-out block followed by no language header reads back as its
      record. */
  lemma ReadBlockOf(lines: seq<string>, k: nat, b: Block)
    requires BlockWellFormed(b) && SegmentLaid(lines, k, Described(b))
    requires k + SegmentSize(Described(b)) == |lines| || !IsLangHeader(lines[k + SegmentSize(Described(b))])
    ensures k < |lines| && StartsWith(lines[k], DescriptionMarker)
    ensures ReadBlock(lines, k + 1) == Some((BlockRecord(b), k + SegmentSize(Described(b))))
  {
    ReadSectionsOf(lines, k + 2, k + SegmentSize(Described(b)), English, b.english, b.others);
    ReadBlockAt(lines, k + 1, Tag(English, b.english) + OthersStatLines(b.others), k + SegmentSize(Described(b)));
  }

  lemma ScanOtherFirst(lines: seq<string>, k: nat, line: string, doc: seq<Segment>)
    requires WellFormed([Other(line)] + doc) && WellFormed(doc)
    requires k < |lines| && lines[k] == line && !StartsWith(line, DescriptionMarker)
    requires Scan(lines, k + 1) == Some(Expected(doc))
    ensures Scan(lines, k) == Some(Expected([Other(line)] + doc))
  {
    ScanSkipAt(lines, k);
    assert ([Other(line)] + doc)[1..] == doc;
  }

  lemma ScanDescribedFirst(lines: seq<string>, k: nat, b: Block, doc: seq<Segment>)
    requires WellFormed([Described(b)] + doc) && WellFormed(doc)
    requires BlockWellFormed(b) && SegmentLaid(lines, k, Described(b))
    requires k + SegmentSize(Described(b)) == |lines| || !IsLangHeader(lines[k + SegmentSize(Described(b))])
    requires Scan(lines, k + SegmentSize(Described(b))) == Some(Expected(doc))
    ensures Scan(lines, k) == Some(Expected([Described(b)] + doc))
  {
    ReadBlockOf(lines, k, b);
    ScanBlockAt(lines, k, BlockRecord(b), k + SegmentSize(Described(b)));
    assert ([Described(b)] + doc)[1..] == doc;
  }

  /** The first segment of a placed document, as the parser sees it. */
  lemma FirstLaid(lines: seq<string>, k: nat, doc: seq<Segment>)
    requires |doc| > 0 && WellFormed(doc) && Placed(lines, k, doc)
    ensures SegmentLaid(lines, k, doc[0])
  {
    PlacedFirst(lines, k, doc);
    SegmentLaidOf(lines, k, doc[0]);
  }

  lemma PlacedFirst(lines: seq<string>, k: nat, doc: seq<Segment>)
    requires |doc| > 0 && WellFormed(doc) && Placed(lines, k, doc)
    ensures SegmentWellFormed(doc[0])
    ensures k + SegmentSize(doc[0]) <= |lines| && lines[k..k + SegmentSize(doc[0])] == SegmentLines(doc[0])
  {
  }

  /** The line after the first segment of a placed document. */
  lemma AfterFirst(lines: seq<string>, k: nat, doc: seq<Segment>)
    requires |doc| > 0 && WellFormed(doc) && Placed(lines, k, doc)
    ensures k + SegmentSize(doc[0]) == |lines| || !IsLangHeader(lines[k + SegmentSize(doc[0])])
  {
    NextNotHeader(lines, k + SegmentSize(doc[0]), doc[1..]);
  }

  /** The step of the round trip for the first segment, given what the rest
      of the document scans to. */
  lemma ScanFirst(lines: seq<string>, k: nat, doc: seq<Segment>)
    requires |doc| > 0 && WellFormed(doc) && SegmentLaid(lines, k, doc[0])
    requires k + SegmentSize(doc[0]) == |lines| || !IsLangHeader(lines[k + SegmentSize(doc[0])])
    requires Scan(lines, k + SegmentSize(doc[0])) == Some(Expected(doc[1..]))
    ensures Scan(lines, k) == Some(Expected(doc))
  {
    assert doc == [doc[0]] + doc[1..];
    match doc[0]
    case Other(line) =>
      ScanOtherFirst(lines, k, line, doc[1..]);
    case Described(b) =>
      ScanDescribedFirst(lines, k, b, doc[1..]);
  }

  /** A well-formed document laid out from `k` to the end of `lines` scans to
      the records it describes. */
  lemma {:induction false} ScanOf(lines: seq<string>, k: nat, doc: seq<Segment>)
    requires WellFormed(doc) && Placed(lines, k, doc)
    ensures Scan(lines, k) == Some(Expected(doc))
    decreases doc
  {
    if |doc| > 0 {
      ScanOf(lines, k + SegmentSize(doc[0]), doc[1..]);
      FirstLaid(lines, k, doc);
      AfterFirst(lines, k, doc);
      ScanFirst(lines, k, doc);
    }
  }

  /** The round trip: the lines of a well-formed document scan to the records
      the document describes. */
  lemma ScanSerialize(doc: seq<Segment>)
    requires WellFormed(doc)
    ensures Scan(Serialize(doc), 0) == Some(Expected(doc))
  {
    var lines := Serialize(doc);
    assert lines[0..] == lines;
    PlacedOf(lines, 0, doc);
    ScanOf(lines, 0, doc);
  }
}

=== FILE: text.dfy ===
/** The handful of .NET string operations the exporter relies on, stated over
    `seq<char>`: prefix and suffix tests, `String.Split`, `String.Join`,
    `String.Trim`, `String.Replace` of one character by nothing,
    `ToLowerInvariant`, `int.Parse` and the decimal rendering of a
    non-negative integer.  Comparisons are ordinal (character by character). */
module Text {
  import opened Wrappers

  predicate StartsWith(s: string, prefix: string) {
    |prefix| <= |s| && s[..|prefix|] == prefix
  }

  predicate EndsWith(s: string, suffix: string) {
    |suffix| <= |s| && s[|s| - |suffix|..] == suffix
  }

  /** Number of characters of `s` that belong to `chars`. */
  function CountIn(s: string, chars: set<char>): nat {
    if |s| == 0 then 0 else (if s[0] in chars then 1 else 0) + CountIn(s[1..], chars)
  }

  predicate NoneIn(s: string, chars: set<char>) {
    forall i :: 0 <= i < |s| ==> s[i] !in chars
  }

  /** `String.Join(sep, pieces)`. */
  function Join(pieces: seq<string>, sep: string): string {
    if |pieces| == 0 then ""
    else if |pieces| == 1 then pieces[0]
    else pieces[0] + sep + Join(pieces[1..], sep)
  }

  // ---------------------------------------------------------------------------
  // String.Split(char[]) without options: every separator character cuts, and
  // empty pieces are kept.
  // ---------------------------------------------------------------------------

  function SplitAny(s: string, seps: set<char>): (pieces: seq<string>)
    ensures |pieces| == CountIn(s, seps) + 1
    decreases |s|
  {
    if |s| == 0 then [""]
    else
      var rest := SplitAny(s[1..], seps);
      if s[0] in seps then [""] + rest
      else [[s[0]] + rest[0]] + rest[1..]
  }

  /** No piece of a split holds a separator. */
  lemma {:induction false} SplitAnyPieces(s: string, seps: set<char>)
    ensures forall i :: 0 <= i < |SplitAny(s, seps)| ==> NoneIn(SplitAny(s, seps)[i], seps)
    decreases |s|
  {
    if |s| > 0 {
      SplitAnyPieces(s[1..], seps);
      var rest := SplitAny(s[1..], seps);
      if s[0] !in seps {
        var pieces := SplitAny(s, seps);
        forall i | 0 <= i < |pieces| ensures NoneIn(pieces[i], seps) {
          if i == 0 {
            assert NoneIn(rest[0], seps);
          } else {
            assert pieces[i] == rest[i];
          }
        }
      }
    }
  }

  /** Splitting on one character and joining the pieces back with it gives the
      original string. */
  lemma {:induction false} JoinSplit(s: string, c: char)
    ensures Join(SplitAny(s, {c}), [c]) == s
    decreases |s|
  {
    if |s| > 0 {
      var rest := SplitAny(s[1..], {c});
      JoinSplit(s[1..], c);
      assert s == [s[0]] + s[1..];
      if s[0] == c {
        JoinCons("", rest, [c]);
      } else if |rest| > 1 {
        var pieces := [[s[0]] + rest[0]] + rest[1..];
        JoinCons(rest[0], rest[1..], [c]);
        assert [rest[0]] + rest[1..] == rest;
        JoinCons(pieces[0], rest[1..], [c]);
      }
    }
  }

  lemma JoinCons(first: string, rest: seq<string>, sep: string)
    requires |rest| > 0
    ensures Join([first] + rest, sep) == first + sep + Join(rest, sep)
  {
    assert ([first] + rest)[1..] == rest;
  }

  /** A separator-free word followed by a separator splits into the word and the
      pieces of the remainder. */
  lemma {:induction false} SplitAfterWord(w: string, c: char, t: string, seps: set<char>)
    requires c in seps && NoneIn(w, seps)
    ensures SplitAny(w + [c] + t, seps) == [w] + SplitAny(t, seps)
    decreases |w|
  {
    var s := w + [c] + t;
    if |w| == 0 {
      assert s == [c] + t && s[1..] == t;
    } else {
      assert s[0] == w[0] && s[1..] == w[1..] + [c] + t;
      SplitAfterWord(w[1..], c, t, seps);
      assert [w[0]] + w[1..] == w;
    }
  }

  /** A separator-free word is one piece. */
  lemma {:induction false} SplitOfWord(w: string, seps: set<char>)
    requires NoneIn(w, seps)
    ensures SplitAny(w, seps) == [w]
    decreases |w|
  {
    if |w| > 0 {
      SplitOfWord(w[1..], seps);
      assert [w[0]] + w[1..] == w;
    }
  }

  /** Joining separator-free pieces with a separator and splitting again gives
      the pieces back. */
  lemma {:induction false} SplitJoin(pieces: seq<string>, c: char, seps: set<char>)
    requires |pieces| > 0 && c in seps
    requires forall i :: 0 <= i < |pieces| ==> NoneIn(pieces[i], seps)
    ensures SplitAny(Join(pieces, [c]), seps) == pieces
    decreases |pieces|
  {
    if |pieces| == 1 {
      SplitOfWord(pieces[0], seps);
    } else {
      SplitJoin(pieces[1..], c, seps);
      SplitAfterWord(pieces[0], c, Join(pieces[1..], [c]), seps);
      assert [pieces[0]] + pieces[1..] == pieces;
    }
  }

  lemma {:induction false} CountInZero(s: string, chars: set<char>)
    ensures CountIn(s, chars) == 0 <==> NoneIn(s, chars)
    decreases |s|
  {
    if |s| > 0 {
      CountInZero(s[1..], chars);
      assert forall i :: 1 <= i < |s| ==> s[i] == s[1..][i - 1];
    }
  }

  /** The last piece of a split is a suffix of the input and, unless it is the
      whole input, follows a separator. */
  lemma {:induction false} SplitLast(s: string, seps: set<char>)
    ensures var pieces := SplitAny(s, seps);
            var last := pieces[|pieces| - 1];
            EndsWith(s, last) && (|last| < |s| ==> s[|s| - |last| - 1] in seps)
    decreases |s|
  {
    if NoneIn(s, seps) {
      SplitOfWord(s, seps);
    } else {
      var rest := SplitAny(s[1..], seps);
      SplitLast(s[1..], seps);
      if s[0] !in seps {
        SplitTailHasSeparator(s, seps, rest);
      }
      SplitLastPiece(s, seps, rest);
      SuffixAfterSeparator(s, seps, rest[|rest| - 1]);
    }
  }

  /** When `s` holds a separator but does not start with one, the rest of `s`
      splits into several pieces and its last piece is a proper suffix. */
  lemma SplitTailHasSeparator(s: string, seps: set<char>, rest: seq<string>)
    requires |s| > 0 && s[0] !in seps && !NoneIn(s, seps)
    requires rest == SplitAny(s[1..], seps)
    requires EndsWith(s[1..], rest[|rest| - 1])
    ensures |rest| > 1 && |rest[|rest| - 1]| < |s| - 1
  {
    var i :| 0 <= i < |s| && s[i] in seps;
    assert s[1..][i - 1] == s[i];
    assert !NoneIn(s[1..], seps);
    CountInZero(s[1..], seps);
    SplitAnyPieces(s[1..], seps);
    var last := rest[|rest| - 1];
    assert NoneIn(last, seps);
  }

  /** Prepending a character to `s[1..]` leaves the last piece alone when
      there are several pieces or the character is a separator. */
  lemma SplitLastPiece(s: string, seps: set<char>, rest: seq<string>)
    requires |s| > 0 && rest == SplitAny(s[1..], seps)
    requires s[0] !in seps ==> |rest| > 1
    ensures var pieces := SplitAny(s, seps);
            pieces[|pieces| - 1] == rest[|rest| - 1]
  {
    var pieces := SplitAny(s, seps);
    if s[0] in seps {
      assert pieces == [""] + rest;
    } else {
      assert pieces == [[s[0]] + rest[0]] + rest[1..];
    }
  }

  /** A suffix of `s[1..]` that follows a separator there, or is all of
      `s[1..]` after a leading separator, is a suffix of `s` that follows a
      separator. */
  lemma SuffixAfterSeparator(s: string, seps: set<char>, last: string)
    requires |s| > 0 && EndsWith(s[1..], last)
    requires |last| < |s| - 1 ==> s[1..][|s| - 1 - |last| - 1] in seps
    requires |last| == |s| - 1 ==> s[0] in seps
    ensures EndsWith(s, last) && (|last| < |s| ==> s[|s| - |last| - 1] in seps)
  {
    assert s[|s| - |last|..] == s[1..][|s| - 1 - |last|..];
    if |last| < |s| - 1 {
      assert s[|s| - |last| - 1] == s[1..][|s| - 1 - |last| - 1];
    }
  }

  /** `s.Split(sep).Last()`: the text after the last `sep`, or all of `s` when
      it has none. */
  function LastSegment(s: string, sep: char): (r: string)
    ensures sep !in r
    ensures EndsWith(s, r)
    ensures |r| < |s| ==> s[|s| - |r| - 1] == sep
  {
    var pieces := SplitAny(s, {sep});
    SplitLast(s, {sep});
    SplitAnyPieces(s, {sep});
    assert NoneIn(pieces[|pieces| - 1], {sep});
    pieces[|pieces| - 1]
  }

  // ---------------------------------------------------------------------------
  // String.Split(char[], StringSplitOptions.RemoveEmptyEntries) on tab and space
  // ---------------------------------------------------------------------------

  const WhiteSpaceSplitter: set<char> := {'\t', ' '}

  function RemoveEmpty(pieces: seq<string>): seq<string> {
    if |pieces| == 0 then []
    else if |pieces[0]| == 0 then RemoveEmpty(pieces[1..])
    else [pieces[0]] + RemoveEmpty(pieces[1..])
  }

  /** Removal keeps exactly the non-empty pieces, and changes nothing when
      there are no empty ones. */
  lemma {:induction false} RemoveEmptyKeeps(pieces: seq<string>)
    ensures forall p :: p in RemoveEmpty(pieces) <==> p in pieces && |p| > 0
    ensures (forall i :: 0 <= i < |pieces| ==> |pieces[i]| > 0) ==> RemoveEmpty(pieces) == pieces
    decreases |pieces|
  {
    if |pieces| > 0 {
      RemoveEmptyKeeps(pieces[1..]);
      assert pieces == [pieces[0]] + pieces[1..];
    }
  }

  /** The non-empty runs of characters other than tab and space: every token
      is non-empty and free of tabs and spaces. */
  function Tokens(s: string): (r: seq<string>)
    ensures forall i :: 0 <= i < |r| ==> |r[i]| > 0 && NoneIn(r[i], WhiteSpaceSplitter)
  {
    var pieces := SplitAny(s, WhiteSpaceSplitter);
    SplitAnyPieces(s, WhiteSpaceSplitter);
    RemoveEmptyKeeps(pieces);
    var r := RemoveEmpty(pieces);
    assert forall i :: 0 <= i < |r| ==> r[i] in r;
    r
  }

  /** Space-separated words come back out of `Tokens` unchanged. */
  lemma TokensOfJoin(words: seq<string>)
    requires forall i :: 0 <= i < |words| ==> |words[i]| > 0 && NoneIn(words[i], WhiteSpaceSplitter)
    ensures Tokens(Join(words, " ")) == words
  {
    if |words| > 0 {
      assert " " == [' '];
      SplitJoin(words, ' ', WhiteSpaceSplitter);
      assert SplitAny(Join(words, " "), WhiteSpaceSplitter) == words;
      RemoveEmptyKeeps(words);
      assert RemoveEmpty(words) == words;
    } else {
      assert Join(words, " ") == "";
      assert SplitAny("", WhiteSpaceSplitter) == [""];
      assert RemoveEmpty([""]) == RemoveEmpty([""][1..]) == [];
    }
  }

  /** Tokens of the empty text: none. */
  lemma TokensEmpty()
    ensures Tokens("") == []
  {
    assert SplitAny("", WhiteSpaceSplitter) == [""];
    assert RemoveEmpty([""]) == RemoveEmpty([""][1..]);
  }

  /** A leading tab or space adds no token. */
  lemma TokensSkipBlank(c: char, t: string)
    requires c in WhiteSpaceSplitter
    ensures Tokens([c] + t) == Tokens(t)
  {
    var s := [c] + t;
    assert s[1..] == t;
    var pieces := SplitAny(t, WhiteSpaceSplitter);
    assert SplitAny(s, WhiteSpaceSplitter) == [""] + pieces;
    assert ([""] + pieces)[1..] == pieces;
  }

  /** A leading run of tabs and spaces adds no token. */
  lemma {:induction false} TokensBlankRun(g: string, t: string)
    requires AllIn(g, WhiteSpaceSplitter)
    ensures Tokens(g + t) == Tokens(t)
    decreases |g|
  {
    if |g| > 0 {
      assert g + t == [g[0]] + (g[1..] + t);
      TokensSkipBlank(g[0], g[1..] + t);
      TokensBlankRun(g[1..], t);
    } else {
      assert g + t == t;
    }
  }

  /** A word ended by a tab or space is the first token. */
  lemma TokensWord(w: string, c: char, t: string)
    requires |w| > 0 && NoneIn(w, WhiteSpaceSplitter) && c in WhiteSpaceSplitter
    ensures Tokens(w + [c] + t) == [w] + Tokens(t)
  {
    SplitAfterWord(w, c, t, WhiteSpaceSplitter);
    var pieces := SplitAny(t, WhiteSpaceSplitter);
    assert ([w] + pieces)[1..] == pieces;
  }

  /** A word followed only by tabs and spaces is the one token. */
  lemma TokensWordThenBlanks(w: string, g: string)
    requires |w| > 0 && NoneIn(w, WhiteSpaceSplitter) && AllIn(g, WhiteSpaceSplitter)
    ensures Tokens(w + g) == [w]
  {
    if |g| == 0 {
      assert w + g == w;
      SplitOfWord(w, WhiteSpaceSplitter);
      assert RemoveEmpty([w]) == [w] + RemoveEmpty([w][1..]);
    } else {
      assert w + g == w + [g[0]] + g[1..];
      TokensWord(w, g[0], g[1..]);
      TokensBlankRun(g[1..], "");
      assert g[1..] + "" == g[1..];
      TokensEmpty();
    }
  }

  /** A word followed by a non-empty run of tabs and spaces is the first
      token. */
  lemma TokensWordGap(w: string, g: string, x: string)
    requires |w| > 0 && NoneIn(w, WhiteSpaceSplitter)
    requires |g| > 0 && AllIn(g, WhiteSpaceSplitter)
    ensures Tokens(w + g + x) == [w] + Tokens(x)
  {
    assert w + g + x == w + [g[0]] + (g[1..] + x);
    TokensWord(w, g[0], g[1..] + x);
    TokensBlankRun(g[1..], x);
  }

  /** `gaps[0] + words[0] + gaps[1] + ... + words[n - 1] + gaps[n]`. */
  function Interleave(gaps: seq<string>, words: seq<string>): string
    requires |gaps| == |words| + 1
    decreases |words|
  {
    if |words| == 0 then gaps[0] else gaps[0] + words[0] + Interleave(gaps[1..], words[1..])
  }

  /** Words separated by non-empty runs of tabs and spaces, with any such run
      at either end, come back out of `Tokens` unchanged. */
  lemma {:induction false} TokensOfInterleave(gaps: seq<string>, words: seq<string>)
    requires |gaps| == |words| + 1
    requires forall i :: 0 <= i < |gaps| ==> AllIn(gaps[i], WhiteSpaceSplitter)
    requires forall i :: 0 < i < |words| ==> |gaps[i]| > 0
    requires forall i :: 0 <= i < |words| ==> |words[i]| > 0 && NoneIn(words[i], WhiteSpaceSplitter)
    ensures Tokens(Interleave(gaps, words)) == words
    decreases |words|
  {
    if |words| == 0 {
      TokensBlankRun(gaps[0], "");
      assert gaps[0] + "" == gaps[0];
      TokensEmpty();
    } else {
      var tail := Interleave(gaps[1..], words[1..]);
      var rest := words[0] + tail;
      assert Interleave(gaps, words) == gaps[0] + rest;
      TokensBlankRun(gaps[0], rest);
      if |words| == 1 {
        assert tail == gaps[1];
        TokensWordThenBlanks(words[0], gaps[1]);
      } else {
        TokensOfInterleave(gaps[1..], words[1..]);
        var x := words[1] + Interleave(gaps[2..], words[2..]);
        assert gaps[1..][1..] == gaps[2..] && words[1..][1..] == words[2..];
        assert tail == gaps[1] + x;
        TokensBlankRun(gaps[1], x);
        TokensWordGap(words[0], gaps[1], x);
        assert rest == words[0] + gaps[1] + x;
        assert [words[0]] + words[1..] == words;
      }
    }
  }

  // ---------------------------------------------------------------------------
  // Trimming
  // ---------------------------------------------------------------------------

  /** The characters `char.IsWhiteSpace` accepts, which `String.Trim()` removes. */
  const WhiteSpace: set<char> := {
    '\U{0009}', '\U{000A}', '\U{000B}', '\U{000C}', '\U{000D}', ' ', '\U{0085}', '\U{00A0}',
    '\U{1680}', '\U{2000}', '\U{2001}', '\U{2002}', '\U{2003}', '\U{2004}', '\U{2005}', '\U{2006}',
    '\U{2007}', '\U{2008}', '\U{2009}', '\U{200A}', '\U{2028}', '\U{2029}', '\U{202F}', '\U{205F}',
    '\U{3000}'}

  function TrimStart(s: string, ws: set<char>): (r: string)
    ensures |r| <= |s| && r == s[|s| - |r|..]
    ensures |r| > 0 ==> r[0] !in ws
    decreases |s|
  {
    if |s| > 0 && s[0] in ws then TrimStart(s[1..], ws) else s
  }

  /** Everything `TrimStart` cuts belongs to `ws`. */
  lemma {:induction false} TrimStartCut(s: string, ws: set<char>)
    ensures forall i :: 0 <= i < |s| - |TrimStart(s, ws)| ==> s[i] in ws
    decreases |s|
  {
    if |s| > 0 && s[0] in ws {
      TrimStartCut(s[1..], ws);
      assert forall i :: 1 <= i < |s| ==> s[i] == s[1..][i - 1];
    }
  }

  function TrimEnd(s: string, ws: set<char>): (r: string)
    ensures |r| <= |s| && r == s[..|r|]
    ensures |r| > 0 ==> r[|r| - 1] !in ws
    decreases |s|
  {
    if |s| > 0 && s[|s| - 1] in ws then TrimEnd(s[..|s| - 1], ws) else s
  }

  /** Everything `TrimEnd` cuts belongs to `ws`. */
  lemma {:induction false} TrimEndCut(s: string, ws: set<char>)
    ensures forall i :: |TrimEnd(s, ws)| <= i < |s| ==> s[i] in ws
    decreases |s|
  {
    if |s| > 0 && s[|s| - 1] in ws {
      TrimEndCut(s[..|s| - 1], ws);
    }
  }

  predicate IsTrimmed(s: string, ws: set<char>) {
    |s| == 0 || (s[0] !in ws && s[|s| - 1] !in ws)
  }

  /** Removes leading and trailing characters of `ws`. */
  function TrimWith(s: string, ws: set<char>): (r: string)
    ensures |r| <= |s|
    ensures IsTrimmed(r, ws)
    ensures IsTrimmed(s, ws) ==> r == s
  {
    TrimEnd(TrimStart(s, ws), ws)
  }

  /** The trimmed string is the infix of `s` left once every `ws` character at
      either end is cut. */
  lemma TrimWithInfix(s: string, ws: set<char>)
    ensures var r := TrimWith(s, ws);
            exists i :: 0 <= i <= |s| - |r| && s[i..][..|r|] == r
                        && (forall k :: 0 <= k < i ==> s[k] in ws)
                        && (forall k :: i + |r| <= k < |s| ==> s[k] in ws)
  {
    var t := TrimStart(s, ws);
    var r := TrimEnd(t, ws);
    var i := |s| - |t|;
    TrimStartCut(s, ws);
    TrimEndCut(t, ws);
    assert s[i..] == t;
    forall k | i + |r| <= k < |s|
      ensures s[k] in ws
    {
      assert s[k] == t[k - i];
    }
  }

  /** A leading space comes off a trimmed word, and nothing else does. */
  lemma TrimLeadingSpace(k: string, ws: set<char>)
    requires ' ' in ws && IsTrimmed(k, ws)
    ensures TrimWith(" " + k, ws) == k
  {
    assert (" " + k)[1..] == k;
    assert TrimStart(" " + k, ws) == TrimStart(k, ws);
  }

  lemma {:induction false} TrimStartPadded(pre: string, w: string, ws: set<char>)
    requires AllIn(pre, ws) && |w| > 0 && w[0] !in ws
    ensures TrimStart(pre + w, ws) == w
    decreases |pre|
  {
    if |pre| > 0 {
      assert (pre + w)[1..] == pre[1..] + w;
      TrimStartPadded(pre[1..], w, ws);
    } else {
      assert pre + w == w;
    }
  }

  lemma {:induction false} TrimEndPadded(w: string, post: string, ws: set<char>)
    requires AllIn(post, ws) && |w| > 0 && w[|w| - 1] !in ws
    ensures TrimEnd(w + post, ws) == w
    decreases |post|
  {
    if |post| > 0 {
      var rest := post[..|post| - 1];
      assert (w + post)[..|w + post| - 1] == w + rest;
      TrimEndPadded(w, rest, ws);
    } else {
      assert w + post == w;
    }
  }

  /** Padding of `ws` characters on both sides of a trimmed, non-empty word
      comes off, and only the padding does. */
  lemma TrimPadded(pre: string, w: string, post: string, ws: set<char>)
    requires AllIn(pre, ws) && AllIn(post, ws) && |w| > 0 && IsTrimmed(w, ws)
    ensures TrimWith(pre + w + post, ws) == w
  {
    assert pre + w + post == pre + (w + post);
    TrimStartPadded(pre, w + post, ws);
    TrimEndPadded(w, post, ws);
  }

  /** `String.Trim()`. */
  function Trim(s: string): string {
    TrimWith(s, WhiteSpace)
  }

  // ---------------------------------------------------------------------------
  // String.Replace(" ", "") and ToLowerInvariant
  // ---------------------------------------------------------------------------

  /** `s` with every occurrence of `c` deleted. */
  function RemoveChar(s: string, c: char): (r: string)
    ensures c !in r
    ensures c !in s ==> r == s
    decreases |s|
  {
    if |s| == 0 then ""
    else
      var rest := RemoveChar(s[1..], c);
      if s[0] == c then rest else [s[0]] + rest
  }

  /** Removal keeps every other character, as many times as it occurs. */
  lemma {:induction false} RemoveCharKeeps(s: string, c: char)
    ensures multiset(RemoveChar(s, c)) == multiset(s)[c := 0]
    decreases |s|
  {
    if |s| > 0 {
      RemoveCharKeeps(s[1..], c);
      assert s == [s[0]] + s[1..];
    }
  }

  function LowerChar(ch: char): char {
    if 'A' <= ch <= 'Z' then (ch as int + 32) as char else ch
  }

  /** `ToLowerInvariant`, for the ASCII letters. */
  function ToLower(s: string): (r: string)
    ensures |r| == |s|
    ensures forall i :: 0 <= i < |s| ==> r[i] == LowerChar(s[i])
  {
    seq(|s|, i requires 0 <= i < |s| => LowerChar(s[i]))
  }

  // ---------------------------------------------------------------------------
  // Integers: int.Parse and the decimal rendering
  // ---------------------------------------------------------------------------

  const Int32Min: int := -0x8000_0000
  const Int32Max: int := 0x7FFF_FFFF

  /** The white space `int.Parse` skips at either end. */
  const ParseWhiteSpace: set<char> := {'\U{0009}', '\U{000A}', '\U{000B}', '\U{000C}', '\U{000D}', ' '}

  predicate IsDigit(c: char) {
    '0' <= c <= '9'
  }

  predicate AllDigits(s: string) {
    forall i :: 0 <= i < |s| ==> IsDigit(s[i])
  }

  predicate AllIn(s: string, chars: set<char>) {
    forall i :: 0 <= i < |s| ==> s[i] in chars
  }

  /** The decimal value of the digits of `s` read after the value `acc`. */
  function DigitsValue(s: string, acc: nat): nat
    requires AllDigits(s)
    decreases |s|
  {
    if |s| == 0 then acc else DigitsValue(s[1..], acc * 10 + (s[0] as int - '0' as int))
  }

  /** `int.Parse(s)` (integer style) under a current culture whose signs are
      ASCII `-` and `+`: white space, an optional sign, at least one ASCII
      digit, white space, any number of NUL characters, and a value in the
      32-bit range; None where .NET throws. */
  function ParseInt32(s: string): (r: Option<int>)
    ensures r.Some? ==> Int32Min <= r.value <= Int32Max
    ensures r.Some? ==> exists i :: 0 <= i < |s| && IsDigit(s[i])
    decreases |s|
  {
    if |s| > 0 && s[0] in ParseWhiteSpace then
      var r := ParseInt32(s[1..]);
      assert r.Some? ==> exists i :: 1 <= i < |s| && IsDigit(s[i]) by {
        if r.Some? {
          var i :| 0 <= i < |s[1..]| && IsDigit(s[1..][i]);
          assert s[i + 1] == s[1..][i];
        }
      }
      r
    else if |s| > 0 && (s[0] == '-' || s[0] == '+') then ParseMagnitude(s[1..], s[0] == '-')
    else ParseMagnitude(s, false)
  }

  /** The digits after the sign: at least one. */
  function ParseMagnitude(s: string, negative: bool): (r: Option<int>)
    ensures r.Some? ==> Int32Min <= r.value <= Int32Max
    ensures r.Some? ==> |s| > 0 && IsDigit(s[0])
  {
    if |s| == 0 || !IsDigit(s[0]) then None else ParseDigits(s, 0, negative)
  }

  /** What may follow the digits: white space, then nothing but NUL
      characters. */
  predicate IsNumberTail(s: string) {
    AllIn(TrimStart(s, ParseWhiteSpace), {'\U{0000}'})
  }

  /** White space followed by NUL characters is a number tail. */
  lemma NumberTailOf(ws: string, nuls: string)
    requires AllIn(ws, ParseWhiteSpace) && AllIn(nuls, {'\U{0000}'})
    ensures IsNumberTail(ws + nuls)
  {
    if |nuls| > 0 {
      TrimStartPadded(ws, nuls, ParseWhiteSpace);
    } else {
      assert ws + nuls == ws;
    }
  }

  /** The remaining digits after the value `acc`, then the number tail. */
  function ParseDigits(s: string, acc: nat, negative: bool): (r: Option<int>)
    ensures r.Some? ==> Int32Min <= r.value <= Int32Max
    decreases |s|
  {
    if |s| > 0 && IsDigit(s[0]) then ParseDigits(s[1..], acc * 10 + (s[0] as int - '0' as int), negative)
    else if !IsNumberTail(s) then None
    else
      var v: int := if negative then -(acc as int) else acc as int;
      if Int32Min <= v <= Int32Max then Some(v) else None
  }

  /** The signed value of `negative` and the digits of `s` after `acc`. */
  function SignedValue(s: string, acc: nat, negative: bool): int
    requires AllDigits(s)
  {
    if negative then -(DigitsValue(s, acc) as int) else DigitsValue(s, acc)
  }

  lemma {:induction false} ParseAllDigits(s: string, acc: nat, negative: bool)
    requires AllDigits(s) && Int32Min <= SignedValue(s, acc, negative) <= Int32Max
    ensures ParseDigits(s, acc, negative) == Some(SignedValue(s, acc, negative))
    decreases |s|
  {
    if |s| > 0 {
      ParseAllDigits(s[1..], acc * 10 + (s[0] as int - '0' as int), negative);
    }
  }

  /** Digits followed by a number tail that does not start with a digit read
      as the digits alone. */
  lemma ParseDigitsThenTail(s: string, tail: string, acc: nat, negative: bool)
    requires AllDigits(s) && Int32Min <= SignedValue(s, acc, negative) <= Int32Max
    requires IsNumberTail(tail) && (|tail| > 0 ==> !IsDigit(tail[0]))
    ensures ParseDigits(s + tail, acc, negative) == Some(SignedValue(s, acc, negative))
  {
    ParseDigitsSkip(s, tail, acc, negative);
    ParseDigitsAtTail(tail, DigitsValue(s, acc), negative);
  }

  /** The digits of `s` only add to the value read so far. */
  lemma {:induction false} ParseDigitsSkip(s: string, tail: string, acc: nat, negative: bool)
    requires AllDigits(s)
    ensures ParseDigits(s + tail, acc, negative) == ParseDigits(tail, DigitsValue(s, acc), negative)
    decreases |s|
  {
    if |s| > 0 {
      assert (s + tail)[0] == s[0] && (s + tail)[1..] == s[1..] + tail;
      ParseDigitsStep(s + tail, acc, negative);
      ParseDigitsSkip(s[1..], tail, acc * 10 + (s[0] as int - '0' as int), negative);
    } else {
      assert s + tail == tail;
    }
  }

  lemma ParseDigitsStep(s: string, acc: nat, negative: bool)
    requires |s| > 0 && IsDigit(s[0])
    ensures ParseDigits(s, acc, negative) == ParseDigits(s[1..], acc * 10 + (s[0] as int - '0' as int), negative)
  {
  }

  lemma ParseDigitsAtTail(tail: string, acc: nat, negative: bool)
    requires IsNumberTail(tail) && (|tail| > 0 ==> !IsDigit(tail[0]))
    requires Int32Min <= (if negative then -(acc as int) else acc as int) <= Int32Max
    ensures ParseDigits(tail, acc, negative) == Some(if negative then -(acc as int) else acc as int)
  {
  }

  function DigitChar(d: nat): (c: char)
    requires d < 10
    ensures IsDigit(c) && c as int - '0' as int == d
  {
    ('0' as int + d) as char
  }

  /** `n.ToString(CultureInfo.InvariantCulture)` for a non-negative `n`. */
  function NatToString(n: nat): (s: string)
    ensures |s| > 0 && AllDigits(s)
    ensures |s| > 1 ==> s[0] != '0'
    decreases n
  {
    if n < 10 then [DigitChar(n)] else NatToString(n / 10) + [DigitChar(n % 10)]
  }

  lemma {:induction false} DigitsValueAppend(s: string, d: char, acc: nat)
    requires AllDigits(s) && IsDigit(d)
    ensures DigitsValue(s + [d], acc) == DigitsValue(s, acc) * 10 + (d as int - '0' as int)
    decreases |s|
  {
    if |s| > 0 {
      assert (s + [d])[1..] == s[1..] + [d];
      DigitsValueAppend(s[1..], d, acc * 10 + (s[0] as int - '0' as int));
    }
  }

  lemma {:induction false} NatToStringValue(n: nat)
    ensures DigitsValue(NatToString(n), 0) == n
    decreases n
  {
    if n >= 10 {
      NatToStringValue(n / 10);
      DigitsValueAppend(NatToString(n / 10), DigitChar(n % 10), 0);
    }
  }

  /** Parsing the decimal rendering of an integer in range gives it back. */
  lemma ParseNatToString(n: nat)
    requires n <= Int32Max
    ensures ParseInt32(NatToString(n)) == Some(n)
  {
    NatToStringValue(n);
    ParseAllDigits(NatToString(n), 0, false);
  }

  /** Trailing white space and NUL characters after the rendering of a number
      in range are accepted and ignored. */
  lemma ParseNatToStringPadded(n: nat, ws: string, nuls: string)
    requires n <= Int32Max
    requires AllIn(ws, ParseWhiteSpace) && AllIn(nuls, {'\U{0000}'})
    ensures ParseInt32(NatToString(n) + ws + nuls) == Some(n)
  {
    var digits := NatToString(n);
    var tail := ws + nuls;
    NatToStringValue(n);
    NumberTailOf(ws, nuls);
    assert digits + ws + nuls == digits + tail;
    ParseDigitsThenTail(digits, tail, 0, false);
    ParseInt32AtDigit(digits + tail);
  }

  /** A text that starts with a digit is read as unsigned digits. */
  lemma ParseInt32AtDigit(s: string)
    requires |s| > 0 && IsDigit(s[0])
    ensures ParseInt32(s) == ParseDigits(s, 0, false)
  {
  }

  /** Parsing a minus sign and the rendering of a magnitude in range gives the
      negative number back. */
  lemma ParseNegatedNatToString(n: nat)
    requires n <= -Int32Min
    ensures ParseInt32("-" + NatToString(n)) == Some(-(n as int))
  {
    var s := "-" + NatToString(n);
    assert s[1..] == NatToString(n);
    NatToStringValue(n);
    ParseAllDigits(NatToString(n), 0, true);
  }

  /** Two renderings agree only on equal numbers, so a rendered number names
      one row. */
  lemma NatToStringInjective(m: nat, n: nat)
    requires NatToString(m) == NatToString(n)
    ensures m == n
  {
    NatToStringValue(m);
    NatToStringValue(n);
  }
}

=== FILE: trade_stats.dfy ===
/** The rules by which the stats export reconciles the trade site's stat
    entries with the parsed stat descriptions.

    Each trade result carries a label and a list of entries (an id and a
    display text).  For an entry, the exporter cuts the label prefix off the
    id, strips the site's scoping suffixes off the text, and looks for the
    first parsed description whose stat lines match the text.  An entry
    without one is skipped, with a warning unless its label is one of the
    quiet ones; an entry with one is written out, marked `local` when some row
    of the Stats table carries one of the description's ids and is flagged
    local.

    The matcher between a description and a text lives in code this model
    does not include, so it is a parameter. */
module TradeStats {
  import opened Wrappers
  import opened Text
  import opened StatDescriptions

  /** Stripped from the end of an entry text, each at most once, in this
      order. */
  const TradeApiStatSuffixes: seq<string> := [" (Local)", " (Shields)", " (Maps)", " (Legacy)", " (Staves)"]

  /** Labels whose unmatched entries are skipped without a warning. */
  const SuppressedWarningLabels: seq<string> := ["pseudo", "delve", "monster", "veiled"]

  // ---------------------------------------------------------------------------
  // Trade id: `id.Substring(label.Length + 1)`
  // ---------------------------------------------------------------------------

  /** The entry id with the label and one separator character cut off; `None`
      where `Substring` would throw because the id is too short. */
  function TradeId(resultLabel: string, entryId: string): (r: Option<string>)
    ensures r.Some? <==> |resultLabel| < |entryId|
    ensures r.Some? ==> |r.value| == |entryId| - |resultLabel| - 1 && EndsWith(entryId, r.value)
  {
    if |resultLabel| + 1 <= |entryId| then Some(entryId[|resultLabel| + 1..]) else None
  }

  /** The trade site's ids are `<label>.<id>`: the cut gives the id back,
      whatever the separator character is. */
  lemma TradeIdOfQualified(resultLabel: string, sep: char, id: string)
    ensures TradeId(resultLabel, resultLabel + [sep] + id) == Some(id)
  {
    assert (resultLabel + [sep] + id)[|resultLabel| + 1..] == id;
  }

  /** Cutting and re-attaching the cut prefix restores the entry id. */
  lemma TradeIdRestores(resultLabel: string, entryId: string)
    requires TradeId(resultLabel, entryId).Some?
    ensures entryId[..|resultLabel| + 1] + TradeId(resultLabel, entryId).value == entryId
  {
  }

  // ---------------------------------------------------------------------------
  // Suffix stripping: `text.Substring(0, text.LastIndexOf(suffix))` when
  // `text.EndsWith(suffix)`
  // ---------------------------------------------------------------------------

  predicate OccursAt(s: string, p: string, i: int) {
    0 <= i && i + |p| <= |s| && s[i..i + |p|] == p
  }

  /** The largest start below `n` at which `p` occurs in `s`, or -1. */
  function LastIndexBelow(s: string, p: string, n: nat): (r: int)
    ensures -1 <= r < n
    ensures r >= 0 ==> OccursAt(s, p, r)
    ensures forall j :: r < j < n ==> !OccursAt(s, p, j)
    decreases n
  {
    if n == 0 then -1
    else if OccursAt(s, p, n - 1) then n - 1
    else LastIndexBelow(s, p, n - 1)
  }

  /** `String.LastIndexOf(string)` with ordinal comparison: the start of the
      last occurrence of `p` in `s`, or -1. */
  function LastIndexOf(s: string, p: string): (r: int)
    ensures r == -1 || OccursAt(s, p, r)
    ensures forall j :: r < j && OccursAt(s, p, j) ==> false
  {
    if |p| > |s| then -1 else LastIndexBelow(s, p, |s| - |p| + 1)
  }

  /** When `s` ends with `p`, the last occurrence of `p` is that ending, so the
      `Substring` cut removes exactly the suffix. */
  lemma LastIndexOfSuffix(s: string, p: string)
    requires EndsWith(s, p)
    ensures LastIndexOf(s, p) == |s| - |p|
  {
    assert OccursAt(s, p, |s| - |p|);
  }

  /** One step of the stripping loop. */
  function StripSuffix(text: string, suffix: string): (r: string)
    ensures EndsWith(text, suffix) ==> r + suffix == text
    ensures !EndsWith(text, suffix) ==> r == text
  {
    if EndsWith(text, suffix) then
      LastIndexOfSuffix(text, suffix);
      text[..LastIndexOf(text, suffix)]
    else text
  }

  /** The stripping loop over `suffixes`, in order, each tried once against the
      text as the earlier steps left it. */
  function StripSuffixes(text: string, suffixes: seq<string>): (r: string)
    ensures StartsWith(text, r)
    decreases |suffixes|
  {
    if |suffixes| == 0 then text
    else StripSuffixes(StripSuffix(text, suffixes[0]), suffixes[1..])
  }

  /** The text the matcher is given for an entry. */
  function NormalizeText(text: string): (r: string)
    ensures StartsWith(text, r)
  {
    StripSuffixes(text, TradeApiStatSuffixes)
  }

  predicate AllNonEmpty(suffixes: seq<string>) {
    forall i :: 0 <= i < |suffixes| ==> |suffixes[i]| > 0
  }

  /** With non-empty suffixes, the text comes back unchanged exactly when it
      ends in none of them; otherwise it gets strictly shorter. */
  lemma {:induction false} StripSuffixesUnchanged(text: string, suffixes: seq<string>)
    requires AllNonEmpty(suffixes)
    ensures StripSuffixes(text, suffixes) == text <==> forall i :: 0 <= i < |suffixes| ==> !EndsWith(text, suffixes[i])
    ensures StripSuffixes(text, suffixes) != text ==> |StripSuffixes(text, suffixes)| < |text|
    decreases |suffixes|
  {
    if |suffixes| > 0 {
      var next := StripSuffix(text, suffixes[0]);
      StripSuffixesUnchanged(next, suffixes[1..]);
      if EndsWith(text, suffixes[0]) {
        assert |next| < |text|;
        assert |StripSuffixes(next, suffixes[1..])| <= |next|;
      } else {
        assert next == text;
        assert forall i :: 1 <= i < |suffixes| ==> suffixes[i] == suffixes[1..][i - 1];
      }
    }
  }

  /** The trade site's suffixes are all non-empty, so a normalized text is the
      entry text exactly when that ends in none of them. */
  lemma NormalizeTextUnchanged(text: string)
    ensures NormalizeText(text) == text <==> forall i :: 0 <= i < |TradeApiStatSuffixes| ==> !EndsWith(text, TradeApiStatSuffixes[i])
  {
    StripSuffixesUnchanged(text, TradeApiStatSuffixes);
  }

  /** The stripping loop over the trade site's suffixes, written out. */
  lemma NormalizeTextSteps(text: string)
    ensures NormalizeText(text) ==
            StripSuffix(StripSuffix(StripSuffix(StripSuffix(StripSuffix(text,
              " (Local)"), " (Shields)"), " (Maps)"), " (Legacy)"), " (Staves)")
  {
    var s := TradeApiStatSuffixes;
    var t1 := StripSuffix(text, s[0]);
    var t2 := StripSuffix(t1, s[1]);
    var t3 := StripSuffix(t2, s[2]);
    var t4 := StripSuffix(t3, s[3]);
    var t5 := StripSuffix(t4, s[4]);
    assert s[1..][1..] == s[2..] && s[2..][1..] == s[3..] && s[3..][1..] == s[4..] && s[4..][1..] == [];
    calc {
      StripSuffixes(text, s);
      StripSuffixes(t1, s[1..]);
      StripSuffixes(t2, s[2..]);
      StripSuffixes(t3, s[3..]);
      StripSuffixes(t4, s[4..]);
      StripSuffixes(t5, []);
    }
  }

  /** A text that differs from `p` in the `k`-th character from the end does
      not end with `p`. */
  lemma NotEndsWithAt(s: string, p: string, k: nat)
    requires 0 < k <= |p|
    requires k <= |s| ==> s[|s| - k] != p[|p| - k]
    ensures !EndsWith(s, p)
  {
    if |p| <= |s| {
      assert s[|s| - |p|..][|p| - k] == s[|s| - k];
    }
  }

  /** Normalizing `stem + " (Local)"` gives `stem` when `stem` ends in none of
      the later suffixes. */
  lemma StripLocal(stem: string)
    requires !EndsWith(stem, " (Shields)") && !EndsWith(stem, " (Maps)")
    requires !EndsWith(stem, " (Legacy)") && !EndsWith(stem, " (Staves)")
    ensures NormalizeText(stem + " (Local)") == stem
  {
    var text := stem + " (Local)";
    assert text[|text| - 8..] == " (Local)";
    assert text[..|text| - 8] == stem;
    NormalizeTextSteps(text);
  }

  /** A doubled suffix loses one copy: each suffix is tried once, so
      normalizing is not idempotent. */
  lemma NormalizeTextNotIdempotent()
    ensures var once := "Life" + " (Local)";
            && NormalizeText(once + " (Local)") == once
            && NormalizeText(NormalizeText(once + " (Local)")) == "Life"
  {
    var once := "Life" + " (Local)";
    NotEndsWithAt(once, " (Shields)", 2);
    NotEndsWithAt(once, " (Maps)", 2);
    NotEndsWithAt(once, " (Legacy)", 2);
    NotEndsWithAt(once, " (Staves)", 2);
    StripLocal(once);
    NotEndsWithAt("Life", " (Shields)", 1);
    NotEndsWithAt("Life", " (Maps)", 1);
    NotEndsWithAt("Life", " (Legacy)", 1);
    NotEndsWithAt("Life", " (Staves)", 1);
    StripLocal("Life");
  }

  /** The suffixes are tried in list order: a `(Local)` before a later
      suffix survives. */
  lemma NormalizeTextOrdered()
    ensures NormalizeText("Life (Local) (Maps)") == "Life (Local)"
  {
    var text := "Life (Local) (Maps)";
    var once := "Life (Local)";
    NotEndsWithAt(text, " (Local)", 2);
    NotEndsWithAt(text, " (Shields)", 3);
    assert text[|text| - 7..] == " (Maps)";
    assert text[..|text| - 7] == once;
    NotEndsWithAt(once, " (Legacy)", 2);
    NotEndsWithAt(once, " (Staves)", 2);
    NormalizeTextSteps(text);
  }

  // ---------------------------------------------------------------------------
  // Owner lookup: `statDescriptions.Find(x => x.HasMatchingStatLine(text))`
  // ---------------------------------------------------------------------------

  /** The index of the first record, in parse order, that `matches` the text. */
  function FindOwner(records: seq<Record>, matches: (Record, string) -> bool, text: string): (r: Option<nat>)
    ensures r.Some? ==> r.value < |records| && matches(records[r.value], text)
    ensures r.Some? ==> forall j :: 0 <= j < r.value ==> !matches(records[j], text)
    ensures r.None? <==> forall j :: 0 <= j < |records| ==> !matches(records[j], text)
    decreases |records|
  {
    if |records| == 0 then None
    else if matches(records[0], text) then Some(0)
    else
      match FindOwner(records[1..], matches, text)
      case None => None
      case Some(i) => Some(i + 1)
  }

  // ---------------------------------------------------------------------------
  // The local flag: `Records.Exists(x => desc.HasMatchingIdentifier(x.Id) &&
  // bool.Parse(x.IsLocal))`
  // ---------------------------------------------------------------------------

  /** A row of the Stats table, with its fields as the table reader renders
      them. */
  datatype StatsRow = StatsRow(id: string, isLocal: string)

  /** The characters `bool.Parse` trims before comparing. */
  const BoolTrim: set<char> := WhiteSpace + {'\U{0000}'}

  /** `bool.Parse`: the text, with surrounding white space and NUL characters
      trimmed, compared ignoring ASCII case with the renderings `True` and
      `False`; anything else throws. */
  function ParseBool(s: string): (r: Option<bool>)
    ensures forall b :: r == Some(b) <==> ToLower(TrimWith(s, BoolTrim)) == ToLower(BoolString(b))
  {
    var t := ToLower(TrimWith(s, BoolTrim));
    if t == ToLower(BoolString(true)) then Some(true)
    else if t == ToLower(BoolString(false)) then
      assert ToLower(BoolString(true))[0] != ToLower(BoolString(false))[0];
      Some(false)
    else None
  }

  /** `bool.ToString()`. */
  function BoolString(b: bool): string {
    if b then "True" else "False"
  }

  /** A rendered flag, with any white space or NUL padding, parses back to
      itself. */
  lemma ParseBoolPadded(b: bool, pre: string, post: string)
    requires AllIn(pre, BoolTrim) && AllIn(post, BoolTrim)
    ensures ParseBool(pre + BoolString(b) + post) == Some(b)
  {
    var w := BoolString(b);
    assert IsTrimmed(w, BoolTrim);
    TrimPadded(pre, w, post, BoolTrim);
  }

  /** A description has a matching identifier when the id is one of its ids. */
  predicate HasMatchingIdentifier(record: Record, id: string) {
    id in record.ids
  }

  /** `Exists` over the rows, left to right, with `parse` reading a row's
      flag: a row whose id does not match is passed over without parsing its
      flag, the first matching row flagged true ends the search, and a
      matching row whose flag does not parse throws (`None`). */
  function IsLocal(rows: seq<StatsRow>, record: Record, parse: string -> Option<bool>): (r: Option<bool>)
    ensures (forall i :: 0 <= i < |rows| ==> !HasMatchingIdentifier(record, rows[i].id)) ==> r == Some(false)
    decreases |rows|
  {
    if |rows| == 0 then Some(false)
    else if HasMatchingIdentifier(record, rows[0].id) then
      match parse(rows[0].isLocal)
      case None => None
      case Some(flag) => if flag then Some(true) else IsLocal(rows[1..], record, parse)
    else IsLocal(rows[1..], record, parse)
  }

  /** A row with a matching id flagged local. */
  predicate LocalRow(record: Record, row: StatsRow, parse: string -> Option<bool>) {
    HasMatchingIdentifier(record, row.id) && parse(row.isLocal) == Some(true)
  }

  /** A row with a matching id whose flag does not parse. */
  predicate BadRow(record: Record, row: StatsRow, parse: string -> Option<bool>) {
    HasMatchingIdentifier(record, row.id) && parse(row.isLocal).None?
  }

  /** The search says local only after finding a row with a matching id
      flagged local. */
  lemma {:induction false} IsLocalTrue(rows: seq<StatsRow>, record: Record, parse: string -> Option<bool>)
    requires IsLocal(rows, record, parse) == Some(true)
    ensures exists i :: 0 <= i < |rows| && LocalRow(record, rows[i], parse)
    decreases |rows|
  {
    if !LocalRow(record, rows[0], parse) {
      IsLocalTrue(rows[1..], record, parse);
      var i :| 0 <= i < |rows[1..]| && LocalRow(record, rows[1..][i], parse);
      assert rows[i + 1] == rows[1..][i];
    }
  }

  /** The search throws only after meeting a row with a matching id whose
      flag does not parse. */
  lemma {:induction false} IsLocalThrows(rows: seq<StatsRow>, record: Record, parse: string -> Option<bool>)
    requires IsLocal(rows, record, parse).None?
    ensures exists i :: 0 <= i < |rows| && BadRow(record, rows[i], parse)
    decreases |rows|
  {
    if !BadRow(record, rows[0], parse) {
      IsLocalThrows(rows[1..], record, parse);
      var i :| 0 <= i < |rows[1..]| && BadRow(record, rows[1..][i], parse);
      assert rows[i + 1] == rows[1..][i];
    }
  }

  /** The search says not local exactly when every row with a matching id is
      flagged false. */
  lemma {:induction false} IsLocalFalse(rows: seq<StatsRow>, record: Record, parse: string -> Option<bool>)
    ensures IsLocal(rows, record, parse) == Some(false) <==>
            forall i :: 0 <= i < |rows| && HasMatchingIdentifier(record, rows[i].id) ==> parse(rows[i].isLocal) == Some(false)
    decreases |rows|
  {
    if |rows| > 0 {
      IsLocalFalse(rows[1..], record, parse);
      assert forall i :: 1 <= i < |rows| ==> rows[i] == rows[1..][i - 1];
    }
  }

  /** When every flag the search could reach parses, the search answers
      exactly whether some row with a matching id is flagged local. */
  lemma IsLocalExists(rows: seq<StatsRow>, record: Record, parse: string -> Option<bool>)
    requires forall i :: 0 <= i < |rows| ==> !BadRow(record, rows[i], parse)
    ensures IsLocal(rows, record, parse) == Some(exists i :: 0 <= i < |rows| && LocalRow(record, rows[i], parse))
  {
    if IsLocal(rows, record, parse) == Some(true) {
      IsLocalTrue(rows, record, parse);
    } else if IsLocal(rows, record, parse).None? {
      IsLocalThrows(rows, record, parse);
    } else {
      IsLocalFalse(rows, record, parse);
    }
  }

  // ---------------------------------------------------------------------------
  // One entry
  // ---------------------------------------------------------------------------

  datatype TradeEntry = TradeEntry(id: string, text: string)

  /** What the exporter does with one entry: skip it (with or without a
      warning), or write it under its trade id with its owner and local flag. */
  datatype EntryOutcome =
    | Skipped(warn: bool)
    | Resolved(tradeId: string, owner: nat, local: bool)

  /** The handling of one entry under the lower-cased `label`; `None` where the
      exporter would throw. */
  function ProcessEntry(resultLabel: string, entry: TradeEntry, records: seq<Record>,
                        matches: (Record, string) -> bool, rows: seq<StatsRow>): (r: Option<EntryOutcome>)
    ensures r.Some? ==> |resultLabel| < |entry.id|
    ensures r.Some? && r.value.Resolved? ==>
              && r.value.owner < |records|
              && matches(records[r.value.owner], NormalizeText(entry.text))
              && r.value.tradeId == entry.id[|resultLabel| + 1..]
  {
    match TradeId(resultLabel, entry.id)
    case None => None
    case Some(tradeId) =>
      var text := NormalizeText(entry.text);
      match FindOwner(records, matches, text)
      case None => Some(Skipped(resultLabel !in SuppressedWarningLabels))
      case Some(owner) =>
        match IsLocal(rows, records[owner], ParseBool)
        case None => None
        case Some(local) => Some(Resolved(tradeId, owner, local))
  }

  /** An entry is skipped exactly when no description matches its normalized
      text, with a warning exactly when the label is not a quiet one; it is
      resolved to the first matching description, under its trade id and with
      the local flag of that description; it throws only on a short id or on
      an unparsable flag of a Stats row with a matching id. */
  lemma ProcessEntryOutcome(resultLabel: string, entry: TradeEntry, records: seq<Record>,
                            matches: (Record, string) -> bool, rows: seq<StatsRow>)
    ensures var r := ProcessEntry(resultLabel, entry, records, matches, rows);
            var text := NormalizeText(entry.text);
            && (r.None? <==> TradeId(resultLabel, entry.id).None? ||
                             ((exists j :: 0 <= j < |records| && matches(records[j], text)) &&
                              IsLocal(rows, records[FindOwner(records, matches, text).value], ParseBool).None?))
            && (r.Some? && r.value.Skipped? <==>
                  TradeId(resultLabel, entry.id).Some? && forall j :: 0 <= j < |records| ==> !matches(records[j], text))
            && (r.Some? && r.value.Skipped? ==> (r.value.warn <==> resultLabel !in SuppressedWarningLabels))
            && (r.Some? && r.value.Resolved? ==>
                  && Some(r.value.tradeId) == TradeId(resultLabel, entry.id)
                  && r.value.owner < |records|
                  && matches(records[r.value.owner], text)
                  && (forall j :: 0 <= j < r.value.owner ==> !matches(records[j], text))
                  && Some(r.value.local) == IsLocal(rows, records[r.value.owner], ParseBool))
  {
  }

  /** All entries of one trade result, under its label lower-cased; the export
      stops at the first entry that throws. */
  function ProcessResult(rawLabel: string, entries: seq<TradeEntry>, records: seq<Record>,
                         matches: (Record, string) -> bool, rows: seq<StatsRow>): (r: Option<seq<EntryOutcome>>)
    ensures r.Some? <==> forall i :: 0 <= i < |entries| ==> ProcessEntry(ToLower(rawLabel), entries[i], records, matches, rows).Some?
    ensures r.Some? ==> |r.value| == |entries|
    ensures r.Some? ==> forall i :: 0 <= i < |entries| ==> Some(r.value[i]) == ProcessEntry(ToLower(rawLabel), entries[i], records, matches, rows)
    decreases |entries|
  {
    if |entries| == 0 then Some([])
    else
      var lowered := ToLower(rawLabel);
      match ProcessEntry(lowered, entries[0], records, matches, rows)
      case None => None
      case Some(first) =>
        match ProcessResult(rawLabel, entries[1..], records, matches, rows)
        case None => None
        case Some(rest) => Some([first] + rest)
  }

  /** The warning rule looks at the lower-cased label, so no entry of a
      result whose label is quiet in any ASCII case is warned about. */
  lemma QuietLabel(rawLabel: string, entries: seq<TradeEntry>, records: seq<Record>,
                   matches: (Record, string) -> bool, rows: seq<StatsRow>)
    requires ToLower(rawLabel) in SuppressedWarningLabels
    requires ProcessResult(rawLabel, entries, records, matches, rows).Some?
    ensures forall i :: 0 <= i < |entries| ==> ProcessResult(rawLabel, entries, records, matches, rows).value[i] != Skipped(true)
  {
    var outcomes := ProcessResult(rawLabel, entries, records, matches, rows).value;
    forall i | 0 <= i < |entries|
      ensures outcomes[i] != Skipped(true)
    {
      ProcessEntryOutcome(ToLower(rawLabel), entries[i], records, matches, rows);
    }
  }
}

=== FILE: wrappers.dfy ===
/** The optional-value datatype used wherever the modelled code either produces a
    value or would throw (a failed parse, an index past the end of an array, a
    substring out of range). */
module Wrappers {

  datatype Option<+T> = None | Some(value: T)

}
